=== FILE: README.md ===
# Direct-message router: a Dafny model

This project models a real-time direct-message service. It covers two snapshots of
the server's socket handler and the command-line client's local message store.

- **Server handlers.** The server binds an identity to a connection, either by a
  verified token at connect time or by a later `login`. It keeps a presence
  registry (`userSockets`: normalised username to the id of the owning
  connection) and a per-sender rate clock (`lastMessageTime`). It runs every
  `message` through an ordered chain of admission checks, then routes it:
  - to the recipient's connection when the recipient is online;
  - otherwise, back to the sender as an offline notice.
- **The `socketHandler.js` snapshot** also persists messages (with a duplicate-id
  check). It answers `get_inbox` with per-contact summaries. Its
  `get_chat_history` returns a conversation and marks it read.
- **The `socketHandler.ts` snapshot** persists nothing. It adds the
  `upload_public_keys` handler with its in-memory key directory.
- **The client store** keeps one history file per lower-cased username. Saving
  appends a message unless its id is already there. Loading returns one
  conversation in time order.

Layout, one module per file:

- `Text`: JavaScript `trim`, ASCII `toLowerCase`, the routing key `Normalize`, and
  `length` in UTF-16 code units.
- `OrderedMap`: a JavaScript `Map` with insertion order (`userSockets`).
- `Sequences`: `filter` and a stable sort on an integer key.
- `Protocol`: identities, payloads, the `Socket` class and the token middleware.
- `Admission`: the ordered checks and the rate clock.
- `Presence`: register/unregister and the status views.
- `MessageTable`: the persisted `messages` table and its queries and updates.
- `Inbox`: the `get_inbox` fold.
- `Events`: what the handlers emit.
- `Router`: the state and handlers both snapshots share, as class `Hub`.
- `ServerJs` and `ServerTs`: the two snapshots. Each is a class that owns a `Hub`
  and adds its own state and handlers.
- `MessageStore`: the client store, as class `LocalStore`.

Everything the handlers cannot decide alone is a parameter of the handler that
needs it:

- the JSON-schema validator's verdict (`schemaValid`);
- bcrypt's comparison (`passwordMatches`);
- the signed token (`token`);
- whether a store query fails (`dbError`, `upsertFails`);
- the clock (`now`, `nowIso`).

The model follows the code as written, except where a row under "## Findings"
corrects it. Two consequences of building names into paths and filter strings are
not modelled; "## Left out" names them under `MessageTable.History`,
`Inbox.InboxQuery` and `MessageStore.LocalStore.SaveMessageLocally`. Some
consequences of the code that are easy to miss:

- A chat-history fetch returns the 50 oldest messages of the conversation, not
  the 50 newest: the query sorts by time ascending and then limits to 50.
- A fetch marks as "read" only the contact's rows whose status is exactly
  "pending". A row stored with the default "sent", or later set to "delivered",
  is never marked by a fetch.
- `upload_public_keys` does not check for an authenticated connection. A guest
  may file keys under any id it names.
- The rate clock is read and set synchronously, before the handler's first
  `await`. So two sends from one sender cannot both pass the 500 ms check.

## Model

| member | source | states |
|---|---|---|
| Text.Trim | server/src/sockets/socketHandler.js:61 | `trim` yields a stretch of the name with only whitespace before and after it; the stretch is empty exactly for a blank name, and otherwise neither starts nor ends with whitespace |
| Text.Lower | server/src/sockets/socketHandler.js:61 | lower-casing keeps the length, leaves no upper-case ASCII letter, and changes nothing else |
| Text.Normalize | server/src/sockets/socketHandler.js:61 | the routing key `trim().toLowerCase()` is no longer than the name, empty exactly for a blank name, and holds no ASCII capital (also socketHandler.js:137-138, 273, 311) |
| Text.NormalizeIsPaddedStretch | server/src/sockets/socketHandler.js:61 | the routing key is a stretch of the lower-cased name with only whitespace before and after it |
| Text.NormalizeEmptyIffBlank | server/src/sockets/socketHandler.js:137-140 | a name's routing key is empty exactly when the name is blank; this is the "recipient required" case |
| Text.NormalizeIdempotent | server/src/sockets/socketHandler.js:61-63 | a routing key normalises to itself |
| Text.NormalizeIgnoresCaseAndPadding | server/src/sockets/socketHandler.js:137-145 | names that differ only in ASCII case or surrounding whitespace share one key |
| Text.LowerTrimCommute | server/src/sockets/socketHandler.js:137 | trimming then lower-casing equals lower-casing then trimming |
| Text.Utf16Length | server/src/sockets/socketHandler.js:155 | JavaScript `length` lies between the character count and twice the character count |
| Text.Utf16LengthOfBmp | server/src/sockets/socketHandler.js:155 | within the Basic Multilingual Plane, `length` is the character count |
| OrderedMap.OMap.Set | server/src/sockets/socketHandler.js:63 | `Map.set`: the key takes the value and no other key changes; a new key goes last in key order, an existing one keeps its place |
| OrderedMap.OMap.Delete | server/src/sockets/socketHandler.js:315 | `Map.delete`: the key is gone; the other keys keep their values and their relative order |
| OrderedMap.OMap.Keys | server/src/sockets/socketHandler.js:274 | `Array.from(keys())` lists every key exactly once, in the order the keys were first set |
| OrderedMap.Remove | server/src/sockets/socketHandler.js:274-275 | filtering one key out of a key list keeps every other key, as often as before and in the same relative order; nothing changes when the key is absent; a list without repeats stays without repeats |
| Sequences.Filter | server/src/sockets/socketHandler.js:256-257 | `filter`: exactly the elements satisfying the predicate, each as often as in the input, in their input order |
| Sequences.FilterKeepsDistinct | server/src/sockets/socketHandler.js:274-275 | filtering a list without repeats leaves a list without repeats |
| Sequences.SortBy | server/src/sockets/socketHandler.js:234-235 | the sort's result is ordered by the key and is a permutation of its input |
| Sequences.PermutationKeepsDistinct | server/src/sockets/socketHandler.js:234 | reordering a list without repeats cannot create a repeat |
| Protocol.Authenticate | server/src/sockets/socketHandler.js:44-55 | a refused token rejects the connection with "Authentication error"; an accepted token binds its claims; no token admits a guest |
| Admission.Screen | server/src/sockets/socketHandler.js:123-157 | the checks fire in order: unauthorised, invalid format, no recipient, self-message, empty content, over 1000 code units; each error is named exactly for its case; a pass carries the forced sender and both normalised keys |
| Admission.Tick | server/src/sockets/socketHandler.js:159-165 | a message is refused exactly when fewer than 500 ms have passed since the last admitted one (0 when none); a pass moves only this sender's clock, to `now` |
| Admission.SpoofedSenderIgnored | server/src/sockets/socketHandler.js:132-135 | the claimed `from` never changes the verdict: admission is identical whatever it says |
| Admission.SelfMessageRefused | server/src/sockets/socketHandler.js:144-147 | any recipient that, lower-cased, is the sender's lower-cased name with whitespace around it (so equal to the sender up to ASCII case and padding) is refused as a self-message |
| Admission.LengthLimitInclusive | server/src/sockets/socketHandler.js:154-157 | 1000 code units pass; 1001 are refused as too long |
| Admission.RateSpacing | server/src/sockets/socketHandler.js:160-165 | after a pass at `t1`, the sender's next message at `t2` passes exactly when `t2 - t1 >= 500` |
| Presence.Register | server/src/sockets/socketHandler.js:60-66 | after connect or login, the normalised name maps to this connection, replacing any earlier one; no other name changes; an existing key keeps its place in the key order and a new key goes last (also socketHandler.js:104-106 and socketHandler.ts:40-46, 86-87) |
| Presence.Unregister | server/src/sockets/socketHandler.js:309-322 | the entry is deleted only when it still names this connection; otherwise the registry is unchanged (also socketHandler.ts:244-257) |
| Presence.LateDisconnectKeepsReconnect | server/src/sockets/socketHandler.js:313-318 | when an old connection disconnects after the user reconnected, the user stays online on the new connection |
| Presence.ConnectThenDisconnect | server/src/sockets/socketHandler.js:309-318 | a connect and its own disconnect leave the name offline and every other name as before |
| Presence.LatestLoginWins | server/src/sockets/socketHandler.js:104-106 | two logins under names with one key: the later connection owns the key, and the registry still holds a single entry for it |
| Presence.OnlineExcept | server/src/sockets/socketHandler.js:271-279 | `get_online_users` lists exactly the registered keys other than the requester's, each once, in the registry's insertion order (also socketHandler.ts:234-242) |
| Presence.ListedUsers | server/src/sockets/socketHandler.js:256-257 | keeps exactly the users with a non-empty name whose key differs from the requester's, each as often as in the table and in table order |
| Presence.StatusList | server/src/sockets/socketHandler.js:256-261 | one entry per listed user, in table order; "online" exactly when its key is registered (also socketHandler.ts:219-224) |
| Presence.StatusListReportsListed | server/src/sockets/socketHandler.js:256-261 | every listed user of the table is reported with its presence |
| MessageTable.InitialStatus | server/src/sockets/socketHandler.js:26 | a missing or empty status is stored as "sent"; any other status is kept as given |
| MessageTable.RowOf | server/src/sockets/socketHandler.js:21-28 | the inserted row carries the payload's id, names, content and time, with the initial status |
| MessageTable.InsertKeepsUniqueIds | server/src/sockets/socketHandler.js:21-28 | inserting a row with a fresh id keeps the primary key unique |
| MessageTable.SetStatus | server/src/sockets/socketHandler.js:36 | only the row with that id takes the status; every other row and column is untouched |
| MessageTable.SameIdsKeepUniqueness | server/src/sockets/socketHandler.js:36 | status updates never change which ids are present |
| MessageTable.ConversationRows | server/src/sockets/socketHandler.js:288 | exactly the rows between the two parties, in either direction, each as often as in the table and in table order |
| MessageTable.History | server/src/sockets/socketHandler.js:285-290 | at most 50 rows, in ascending time, as many as the conversation has up to 50; the rows are drawn from the conversation without repeating any (a sub-multiset of it); the whole conversation when it is short |
| MessageTable.HistoryKeepsOldest | server/src/sockets/socketHandler.js:289-290 | a conversation row left out of the history is no earlier than any row that made it in |
| MessageTable.MarkRead | server/src/sockets/socketHandler.js:296-301 | exactly the rows from the contact to the user with status "pending" become "read"; every other row is unchanged |
| MessageTable.MarkReadSkipsSentAndDelivered | server/src/sockets/socketHandler.js:296-301 | a "sent" or "delivered" row is never marked read by a fetch |
| MessageTable.MarkReadIdempotent | server/src/sockets/socketHandler.js:296-301 | a second fetch marks nothing more |
| Inbox.InboxQuery | server/src/sockets/socketHandler.js:202-206 | exactly the rows the user sent or received, each as often as in the table, newest first |
| Inbox.Absorb | server/src/sockets/socketHandler.js:213-231 | the loop body: the row's contact gets a summary from this row when it had none; only unread rows to the user add to a count; contacts stay distinct |
| Inbox.BuildInbox | server/src/sockets/socketHandler.js:211-235 | one summary per contact and no other; each summary has the preview and time of the contact's first row and the contact's unread count; ordered by time, newest first |
| Inbox.SummaryIsLatest | server/src/sockets/socketHandler.js:206-225 | with the query's newest-first order, a summary's time is that of the contact's latest message |
| Inbox.UnreadCountsIncomingOnly | server/src/sockets/socketHandler.js:227-231 | for a contact other than the user, the unread count is the number of that contact's messages to the user not marked "read" |
| Inbox.NoContactNoUnread | server/src/sockets/socketHandler.js:227-231 | a contact without messages has no unread count |
| Inbox.AbsorbAsWritten | server/src/sockets/socketHandler.js:211-231 | the loop body on a plain object: a contact named like an inherited property is treated as present, so the summaries are left as they were |
| Inbox.GroupAsWritten | server/src/sockets/socketHandler.js:211-232 | the loop as written keeps contacts distinct |
| Inbox.PrototypeContactsNeverListed | server/src/sockets/socketHandler.js:211-232 | as written, no summary is ever built for a contact named like an inherited property |
| Inbox.InboxAsWritten | server/src/sockets/socketHandler.js:211-235 | the inbox as written is ordered newest first and never holds a summary for a contact named like an inherited property |
| Inbox.PrototypeContactLost | server/src/sockets/socketHandler.js:211-238 | one message from "constructor" to "alice": the handler as written sends an empty inbox, while `BuildInbox` lists the conversation |
| Router.UsersNamed | server/src/sockets/socketHandler.js:89 | exactly the user rows with that exact name, each as often as in the table and in table order |
| Router.Routing | server/src/sockets/socketHandler.js:181-192 | a registered recipient gets only the message on its connection; otherwise the sender gets the notification "User <to> is offline." and then an "offline" status, both for the payload's `to` (also socketHandler.ts:195-205) |
| Router.RoutingReachesOnlyRecipient | server/src/sockets/socketHandler.js:181-185 | a message goes to no connection except the recipient's registered one, and it is the admitted payload |
| Router.Hub.constructor | server/src/sockets/socketHandler.js:13-17 | the registry and the rate clock start empty |
| Router.Hub.Connect | server/src/sockets/socketHandler.js:44-66 | the token middleware runs before the `connection` handler: a refused token fails with "Authentication error" and registers nothing; no token gives a guest connection that changes nothing; an accepted token binds its claims, registers the name and broadcasts it online (also socketHandler.ts:24-46) |
| Router.Hub.OnConnection | server/src/sockets/socketHandler.js:60-66 | an authenticated connection registers and is broadcast online; a guest changes nothing (also socketHandler.ts:40-46) |
| Router.Hub.SignIn | server/src/sockets/socketHandler.js:104-106 | the connection is bound to the user row's identity and owns the user's key |
| Router.Hub.Admit | server/src/sockets/socketHandler.js:123-165 | the clock moves exactly when every check passes, and then as `Tick` says; a refusal names the first failing check and leaves all state unchanged (also socketHandler.ts:149-191) |
| Router.Hub.GetAllUsersStatus | server/src/sockets/socketHandler.js:246-268 | silent for a guest; "Failed to fetch users status" when the query fails; otherwise the status list (also socketHandler.ts:209-231) |
| Router.Hub.GetOnlineUsers | server/src/sockets/socketHandler.js:271-279 | silent for a guest; otherwise the other online keys (also socketHandler.ts:234-242) |
| Router.Hub.Disconnect | server/src/sockets/socketHandler.js:309-322 | unregisters per `Unregister`, and broadcasts "offline" only when this connection still owned the key; a guest changes nothing (also socketHandler.ts:244-257) |
| ServerJs.StoredRow | server/src/sockets/socketHandler.js:179-192 | the row an accepted message leaves: the payload's id, names, content and time, "delivered" when the recipient was online and its initial status otherwise |
| ServerJs.DeliveredTouchesOnlyNewRow | server/src/sockets/socketHandler.js:186 | marking the new row delivered changes no earlier row |
| ServerJs.JsServer.Login | server/src/sockets/socketHandler.js:87-118 | a failed query answers "Login failed"; an unknown name answers "User not found"; a wrong password answers "Invalid password"; success binds and registers the first matching row, replies with the token and username, and broadcasts online; an error changes no state |
| ServerJs.JsServer.SaveMessage | server/src/sockets/socketHandler.js:19-32 | inserts the row unless its id is taken, in which case the table is unchanged; the primary key stays unique |
| ServerJs.JsServer.UpdateMessageStatus | server/src/sockets/socketHandler.js:34-40 | the table becomes `SetStatus` of the old table |
| ServerJs.JsServer.OnMessage | server/src/sockets/socketHandler.js:122-193 | a refusal emits its error and changes nothing; a duplicate id moves the clock but emits and stores nothing; otherwise one row is stored (delivered when the recipient is online) and the message is routed |
| ServerJs.JsServer.GetInbox | server/src/sockets/socketHandler.js:196-243 | silent for a guest; "Failed to fetch inbox" when the query fails; otherwise an inbox meeting `IsInboxOf` over the user's rows |
| ServerJs.JsServer.GetChatHistory | server/src/sockets/socketHandler.js:282-307 | silent for a guest; on a failed query an error and no marking; otherwise the history is sent, then the table becomes `MarkRead` of the old one |
| ServerTs.Or | server/src/sockets/socketHandler.ts:104-105 | JavaScript's `or` on an optional string: the string when it is present and non-empty, else the fallback |
| ServerTs.UploadName | server/src/sockets/socketHandler.ts:104 | the key name is the connection's username, else the payload's, else empty, trimmed and lower-cased |
| ServerTs.UploadId | server/src/sockets/socketHandler.ts:105 | the user id is the connection's, else the payload's, else empty, trimmed |
| ServerTs.UploadIdAsWritten | server/src/sockets/socketHandler.ts:105 | the id expression on a value that may be a number: a text id is trimmed; a non-zero number throws "trim is not a function"; zero or no id falls through to the payload |
| ServerTs.NumericIdUploadThrows | server/src/sockets/socketHandler.ts:105 | a connection whose user id is the number 7 makes the upload throw, while the id read as text is "7" |
| ServerTs.AuthenticatedIdWins | server/src/sockets/socketHandler.ts:104-105 | on an authenticated connection the payload's claimed id and name change nothing |
| ServerTs.GuestUploadFollowsPayload | server/src/sockets/socketHandler.ts:104-105 | on a guest connection the payload alone decides the id and the name |
| ServerTs.TsServer.Login | server/src/sockets/socketHandler.ts:68-100 | a failed query or an unknown name answers "User not found"; a wrong password answers "Invalid password"; success also reports the user id |
| ServerTs.TsServer.UploadPublicKeys | server/src/sockets/socketHandler.ts:103-145 | an empty id, missing keys and a failed upsert each give their error and change nothing; success files the row under the id (format defaults to "der-base64") and the in-memory entry under a non-empty name only |
| ServerTs.TsServer.OnMessage | server/src/sockets/socketHandler.ts:148-206 | the same admission and clock as the JS snapshot, then routing only: no duplicate check and no storage |
| MessageStore.Conversation | client-cli/src/core/storage/MessageStore.ts:58-62 | exactly the messages between the two lower-cased names in either direction, each as often as stored |
| MessageStore.LocalStore.Stored | client-cli/src/core/storage/MessageStore.ts:29-37 | a missing or unparseable file reads as an empty history |
| MessageStore.LocalStore.SaveMessageLocally | client-cli/src/core/storage/MessageStore.ts:23-44 | appends at the end exactly when no stored message has the id, otherwise changes nothing; the id is present afterwards; no other user's history changes |
| MessageStore.LocalStore.LoadLocalHistory | client-cli/src/core/storage/MessageStore.ts:49-67 | ordered by time and a permutation of the filtered conversation; every message is between the two names and was stored; empty for a missing or unparseable file |
| MessageStore.FileKey | client-cli/src/core/storage/MessageStore.ts:28 | the history file's key is the username with each ASCII capital lowered, character by character, and lower-casing the key again changes nothing (also line 50) |
| MessageStore.CaseVariantsShareHistory | client-cli/src/core/storage/MessageStore.ts:50 | names equal up to case read the same file and load the same history (the file name is built the same way at line 28) |
| MessageStore.StoredMessageIsLoaded | client-cli/src/core/storage/MessageStore.ts:58-63 | a stored message of the conversation is always loaded |

## Left out

- The `register` handler. It only hashes a password and inserts a user row.
- bcrypt hashing, JWT signing, JWT verification and the ajv schema are opaque.
  The model receives their verdicts as parameters (`passwordMatches`, `token`,
  `Handshake`, `schemaValid`).
- The validator's `errors` list in the "Invalid message format" event is not
  modelled.
- The store is an in-memory table.
  - Query failures are the flags `dbError` and `upsertFails`.
  - The duplicate-id lookup, the insert, the status update and the mark-read
    update of `get_chat_history` (socketHandler.js:296-301) are not modelled as
    able to fail on their own. The mark-read runs inside the same `try` as the
    history query (socketHandler.js:284-306), after `chat_history` was sent. If
    it throws, the `catch` also emits "Failed to fetch history" after the
    history. If it returns an error, the error is dropped without a trace.
  - A swallowed insert error is modelled as the primary key refusing the row.
- `console` logging is left out.
- Concurrency is left out; every socket event runs as one atomic step. In the
  JS `message` handler, `saveMessage` and `updateMessageStatus` are not awaited.
  Whether the "delivered" update can run before the insert is not modelled.
- Timestamps are integers. ISO date parsing is left out, and so is the
  client-side `NaN` that an unparseable date gives to the sort comparator.
- The two `toISOString` calls of the upload are read as one instant (`nowIso`).
- Text.Lower: it lower-cases ASCII letters only. JavaScript's `toLowerCase`
  also maps other Unicode letters, and a few of them change length.
- Sequences.SortBy: it is a stable insertion sort. For rows with equal
  timestamps, the store's `order by` may return another order; the model fixes
  one.
- ServerJs.JsServer.GetInbox: it answers with the corrected fold `BuildInbox`,
  not the fold as written. So a contact named like an inherited property of a
  plain object (for example "constructor") gets a summary the handler as written
  never sends. `Inbox.InboxAsWritten` models the fold as written; see Findings.
- ServerTs.TsServer.UploadPublicKeys: user ids are text in the model. A
  connection whose id is a number would make the handler throw; see Findings.
- MessageTable.History and Inbox.InboxQuery: the model compares names exactly.
  The store's filters are strings built from the names without escaping
  (socketHandler.js:205 and 288). A name or `contact` holding filter syntax
  (`,` `.` `(` `)`) may change which rows match, for example to rows of other
  users' conversations. That widening is not modelled.
- MessageStore.LocalStore.SaveMessageLocally: histories are keyed by `FileKey`
  alone. In the source, the file path joins the lower-cased name into
  `history_<name>.json` (MessageStore.ts:28, 50). A name holding `/` or `..` can
  reach another user's file, or a missing directory, where the write at
  MessageStore.ts:42 throws. Neither is modelled.
- Inbox.BuildInbox: it emits the summaries in first-seen order before the
  stable sort. `Object.values` puts integer-like keys first; that order is not
  modelled.
- The payload is modified in place when its `from` is forced. The model passes
  the forced copy on; aliasing with the caller's object is not modelled.
- MessageStore: the data directory is created on demand, which is not
  modelled.
- MessageStore: a file that parses to something other than an array of
  messages is not modelled, for example `{}` or a record without `from`. In
  the source `find` or `filter` would throw; the model covers a missing file,
  a file that does not parse, and a parsed list.

## Findings

| source | as written | input that shows it | evidently intended | confidence | as-written member | corrected member |
|---|---|---|---|---|---|---|
| server/src/sockets/socketHandler.js:211-231 | `conversations` is a plain `{}`, so `!conversations[contact]` is false for any name `Object.prototype` provides, and that contact never gets a summary (its `unread_count++` goes to the inherited value) | the user "alice" has one message from a user named "constructor"; `get_inbox` returns `[]` | every contact gets exactly one summary (a `Map` or `Object.create(null)`) | not executed; follows from JavaScript property lookup | Inbox.PrototypeContactLost | Inbox.BuildInbox |
| server/src/sockets/socketHandler.ts:105 | the id is chosen with `\|\|` (connection id, else payload id, else empty) and trimmed before the `try`; a non-zero numeric id is truthy and has no `trim`, so the `async` listener throws before its `try`: it never replies, and the rejection is unhandled, which under Node's default since version 15 ends the server process and with it every connection and the in-memory `userSockets` | a connection logged in as a user whose id is the number 7 uploads both keys | the id is read as text (`String(...)`) and the keys are filed under "7" | not executed; holds when the id is the `SERIAL` column of server/src/utils/initDb.js:6 rather than a client-supplied string | ServerTs.NumericIdUploadThrows | ServerTs.TsServer.UploadPublicKeys |

=== FILE: admission.dfy ===
/** The admission checks the `message` handler runs before it stores or routes
    anything, shared by both server snapshots (socketHandler.js and
    socketHandler.ts): the ordered policy checks, then the per-sender rate clock. */
module Admission {

  import opened Wrappers
  import opened Text
  import opened Protocol

  const MaxContentLength := 1000
  const RateWindowMs := 500

  const ErrUnauthorized := "Unauthorized"
  const ErrInvalidFormat := "Invalid message format"
  const ErrNoRecipient := "Recipient \"to\" field is required"
  const ErrSelfMessage := "You cannot message yourself"
  const ErrEmptyContent := "Message cannot be empty"
  const ErrTooLong := "Message is too long"
  const ErrTooFast := "You are sending messages too fast"

  /** A message that passed the policy checks: the payload with its sender forced to
      the connection's identity, and the normalised sender and recipient keys. */
  datatype Admitted = Admitted(message: DirectMessage, sender: string, recipient: string)

  /** The checks in the order the handler runs them. The first that fails names the
      error; a payload that passes all of them carries the bound username as `from`,
      whatever it claimed. `schemaValid` is the JSON-schema validator's verdict. */
  function Screen(user: Option<Identity>, schemaValid: bool, data: DirectMessage): (r: Result<Admitted, string>)
    ensures r.Success? <==>
      && user.Some? && schemaValid
      && Normalize(data.to) != []
      && Normalize(user.value.username) != Normalize(data.to)
      && !IsBlank(data.content)
      && Utf16Length(data.content) <= MaxContentLength
    ensures r.Success? ==>
      && r.value.message == data.(from := user.value.username)
      && r.value.sender == Normalize(user.value.username)
      && r.value.recipient == Normalize(data.to)
    ensures user.None? ==> r == Failure(ErrUnauthorized)
    ensures user.Some? && !schemaValid ==> r == Failure(ErrInvalidFormat)
    ensures user.Some? && schemaValid && Normalize(data.to) == [] ==> r == Failure(ErrNoRecipient)
    ensures r == Failure(ErrSelfMessage) <==>
      user.Some? && schemaValid && Normalize(data.to) != [] && Normalize(user.value.username) == Normalize(data.to)
    ensures r == Failure(ErrEmptyContent) <==>
      && user.Some? && schemaValid && Normalize(data.to) != []
      && Normalize(user.value.username) != Normalize(data.to) && IsBlank(data.content)
    ensures r == Failure(ErrTooLong) <==>
      && user.Some? && schemaValid && Normalize(data.to) != []
      && Normalize(user.value.username) != Normalize(data.to) && !IsBlank(data.content)
      && Utf16Length(data.content) > MaxContentLength
  {
    if user.None? then Failure(ErrUnauthorized)
    else if !schemaValid then Failure(ErrInvalidFormat)
    else
      var forced := data.(from := user.value.username);
      var sender := Normalize(forced.from);
      var recipient := Normalize(forced.to);
      if recipient == [] then Failure(ErrNoRecipient)
      else if sender == recipient then Failure(ErrSelfMessage)
      else if Trim(forced.content) == [] then Failure(ErrEmptyContent)
      else if Utf16Length(forced.content) > MaxContentLength then Failure(ErrTooLong)
      else Success(Admitted(forced, sender, recipient))
  }

  /** `lastMessageTime.get(sender) || 0`. */
  function LastSent(clock: map<string, int>, sender: string): int {
    if sender in clock then clock[sender] else 0
  }

  /** The rate limit: a message is refused when fewer than 500 ms have passed since
      the sender's last admitted one; an admitted message moves that sender's clock
      to `now` and leaves every other sender's alone. */
  function Tick(clock: map<string, int>, sender: string, now: int): (r: Result<map<string, int>, string>)
    ensures r.Success? <==> now - LastSent(clock, sender) >= RateWindowMs
    ensures r.Failure? ==> r.error == ErrTooFast
    ensures r.Success? ==> r.value.Keys == clock.Keys + {sender} && r.value[sender] == now
    ensures r.Success? ==> forall s :: s in clock && s != sender ==> r.value[s] == clock[s]
  {
    if now - LastSent(clock, sender) < RateWindowMs then Failure(ErrTooFast)
    else Success(clock[sender := now])
  }

  /** The claimed sender plays no part in admission: a spoofed `from` is overwritten,
      never trusted and never the reason for a rejection. */
  lemma SpoofedSenderIgnored(user: Option<Identity>, schemaValid: bool, data: DirectMessage, claimed: string)
    ensures Screen(user, schemaValid, data.(from := claimed)) == Screen(user, schemaValid, data)
  {
  }

  /** A message whose recipient normalises to the sender's own key is refused whatever
      its content: any recipient that, lower-cased, is the sender's lower-cased name
      with whitespace around it. */
  lemma SelfMessageRefused(user: Identity, schemaValid: bool, data: DirectMessage, pad1: string, pad2: string)
    requires schemaValid && IsBlank(pad1) && IsBlank(pad2) && !IsBlank(user.username)
    requires Lower(data.to) == pad1 + Lower(user.username) + pad2
    ensures Screen(Some(user), schemaValid, data) == Failure(ErrSelfMessage)
  {
    LowerTrimCommute(data.to);
    TrimPadded(pad1, Lower(user.username), pad2);
    LowerTrimCommute(user.username);
    NormalizeEmptyIffBlank(user.username);
  }

  /** The length limit is inclusive: 1000 characters of the Basic Multilingual Plane
      pass, one more is refused. */
  lemma LengthLimitInclusive(user: Identity, data: DirectMessage, extra: char)
    requires Normalize(data.to) != [] && Normalize(user.username) != Normalize(data.to)
    requires !IsBlank(data.content) && |data.content| == MaxContentLength
    requires forall i :: 0 <= i < |data.content| ==> data.content[i] as int < 0x1_0000
    requires extra as int < 0x1_0000
    ensures Screen(Some(user), true, data).Success?
    ensures Screen(Some(user), true, data.(content := data.content + [extra])) == Failure(ErrTooLong)
  {
    Utf16LengthOfBmp(data.content);
    var longer := data.content + [extra];
    assert !IsBlank(longer) by {
      var i :| 0 <= i < |data.content| && !IsWhitespace(data.content[i]);
      assert longer[i] == data.content[i];
    }
    Utf16LengthOfBmp(longer);
  }

  /** Two messages from one sender: once the first is admitted at `t1`, the second,
      at `t2`, is admitted exactly when it comes at least 500 ms later. */
  lemma RateSpacing(clock: map<string, int>, sender: string, t1: int, t2: int)
    requires Tick(clock, sender, t1).Success?
    ensures Tick(Tick(clock, sender, t1).value, sender, t2).Success? <==> t2 - t1 >= RateWindowMs
  {
  }
}

=== FILE: events.dfy ===
/** What the handlers emit, and to whom: the calling connection, one other connection
    by id, or every connection. */
module Events {

  import opened Wrappers
  import opened Protocol
  import opened MessageTable
  import opened Inbox
  import opened Presence

  datatype Event =
    | ErrorEvent(message: string)
    | UserStatus(username: string, status: string)
    | MessageEvent(payload: DirectMessage)
    | Notification(text: string)
    | LoginSuccess(token: string, username: string, userId: Option<string>)
    | InboxData(conversations: seq<Conversation>)
    | ChatHistory(contact: string, messages: seq<Row>)
    | AllUsersStatusData(users: seq<StatusEntry>)
    | OnlineUsersData(usernames: seq<string>)
    | PublicKeysUploaded(ownerId: string, ownerName: Option<string>)

  /** `socket.emit`, `io.to(id).emit` and `io.emit`. */
  datatype Emit = Reply(event: Event) | SendTo(target: SocketId, event: Event) | Broadcast(event: Event)
}

=== FILE: inbox.dfy ===
/** `get_inbox` of socketHandler.js: the user's messages, newest first, folded into one
    conversation summary per contact, then sorted by the summary's time, newest first. */
module Inbox {

  import opened Sequences
  import opened MessageTable

  datatype Conversation = Conversation(
    contact: string,
    lastMessagePreview: string,
    lastTimestamp: int,
    unreadCount: nat)

  /** The store query: rows the user sent or received, in descending time order. */
  predicate Involves(m: Row, user: string) {
    m.sender == user || m.recipient == user
  }

  function NegTimestamp(m: Row): int {
    -m.timestamp
  }

  function InboxQuery(rows: seq<Row>, user: string): (r: seq<Row>)
    ensures SortedBy(r, NegTimestamp)
    ensures forall i :: 0 <= i < |r| ==> Involves(r[i], user) && r[i] in rows
    ensures forall m :: m in rows && Involves(m, user) ==> m in r
    ensures forall m :: multiset(r)[m] == if Involves(m, user) then multiset(rows)[m] else 0
  {
    var involved := Filter(rows, m => Involves(m, user));
    var r := SortBy(involved, NegTimestamp);
    PermutationMembers(involved, r);
    PermutationMembers(r, involved);
    r
  }

  /** The other party of a row, as the handler computes it. */
  function Contact(user: string, m: Row): string {
    if m.sender == user then m.recipient else m.sender
  }

  predicate HasContact(user: string, ms: seq<Row>, c: string) {
    exists i :: 0 <= i < |ms| && Contact(user, ms[i]) == c
  }

  /** The position of the first row whose contact is `c`. */
  function FirstWith(user: string, ms: seq<Row>, c: string): (k: nat)
    requires HasContact(user, ms, c)
    ensures k < |ms| && Contact(user, ms[k]) == c
    ensures forall j :: 0 <= j < k ==> Contact(user, ms[j]) != c
  {
    if Contact(user, ms[0]) == c then 0
    else
      assert HasContact(user, ms[1..], c) by {
        var i :| 0 <= i < |ms| && Contact(user, ms[i]) == c;
        assert i > 0 && Contact(user, ms[1..][i - 1]) == c;
      }
      1 + FirstWith(user, ms[1..], c)
  }

  /** A row counts against the inbox when it was addressed to the user and is not read. */
  predicate CountsAsUnread(user: string, m: Row) {
    m.recipient == user && m.status != StatusRead
  }

  /** How many rows with contact `c` count as unread. */
  function Unread(user: string, ms: seq<Row>, c: string): nat {
    if ms == [] then 0
    else
      var last := ms[|ms| - 1];
      Unread(user, ms[..|ms| - 1], c) + (if Contact(user, last) == c && CountsAsUnread(user, last) then 1 else 0)
  }

  lemma {:induction false} NoContactNoUnread(user: string, ms: seq<Row>, c: string)
    requires !HasContact(user, ms, c)
    ensures Unread(user, ms, c) == 0
  {
    if ms != [] {
      var front := ms[..|ms| - 1];
      forall i | 0 <= i < |front| ensures Contact(user, front[i]) != c {
        assert front[i] == ms[i];
      }
      NoContactNoUnread(user, front, c);
    }
  }

  /** The summary the handler builds for contact `c`: preview and time of the first
      row with that contact, and the number of that contact's unread rows. */
  function Summary(user: string, ms: seq<Row>, c: string): Conversation
    requires HasContact(user, ms, c)
  {
    var first := ms[FirstWith(user, ms, c)];
    Conversation(c, first.content, first.timestamp, Unread(user, ms, c))
  }

  function NegLastTimestamp(c: Conversation): int {
    -c.lastTimestamp
  }

  /** What `inbox_data` carries: exactly one summary per contact, each the right one,
      newest conversation first. */
  ghost predicate IsInboxOf(user: string, ms: seq<Row>, inbox: seq<Conversation>) {
    && (forall k :: 0 <= k < |inbox| ==>
          HasContact(user, ms, inbox[k].contact) && inbox[k] == Summary(user, ms, inbox[k].contact))
    && (forall c :: HasContact(user, ms, c) ==> exists k :: 0 <= k < |inbox| && inbox[k].contact == c)
    && (forall i, j :: 0 <= i < j < |inbox| ==> inbox[i].contact != inbox[j].contact)
    && (forall i, j :: 0 <= i < j < |inbox| ==> inbox[i].lastTimestamp >= inbox[j].lastTimestamp)
  }

  /** The position of `c` in `convs`, or `|convs|` when it has none yet (the object
      lookup `conversations[contact]`). */
  function IndexOf(convs: seq<Conversation>, c: string): (k: nat)
    ensures k <= |convs|
    ensures k < |convs| ==> convs[k].contact == c
    ensures k == |convs| ==> forall j :: 0 <= j < |convs| ==> convs[j].contact != c
  {
    if convs == [] then 0
    else if convs[0].contact == c then 0
    else 1 + IndexOf(convs[1..], c)
  }

  /** Extending the prefix by one row adds exactly that row's contact. */
  lemma PrefixContacts(user: string, ms: seq<Row>, i: nat, d: string)
    requires i < |ms|
    ensures HasContact(user, ms[..i + 1], d) <==> HasContact(user, ms[..i], d) || Contact(user, ms[i]) == d
  {
    if HasContact(user, ms[..i + 1], d) && Contact(user, ms[i]) != d {
      var p :| 0 <= p < i + 1 && Contact(user, ms[..i + 1][p]) == d;
      assert ms[..i][p] == ms[p];
    }
    if HasContact(user, ms[..i], d) {
      var p :| 0 <= p < i && Contact(user, ms[..i][p]) == d;
      assert ms[..i + 1][p] == ms[p];
    }
    if Contact(user, ms[i]) == d {
      assert ms[..i + 1][i] == ms[i];
    }
  }

  /** A contact first seen at row `i` has its first row there. */
  lemma FirstAtRow(user: string, ms: seq<Row>, i: nat)
    requires i < |ms| && !HasContact(user, ms[..i], Contact(user, ms[i]))
    ensures HasContact(user, ms, Contact(user, ms[i])) && FirstWith(user, ms, Contact(user, ms[i])) == i
  {
    var c := Contact(user, ms[i]);
    assert HasContact(user, ms, c);
    var f := FirstWith(user, ms, c);
    assert forall j :: 0 <= j < i ==> ms[..i][j] == ms[j];
  }

  lemma UnreadStep(user: string, ms: seq<Row>, i: nat, d: string)
    requires i < |ms|
    ensures Unread(user, ms[..i + 1], d) ==
      Unread(user, ms[..i], d) + (if Contact(user, ms[i]) == d && CountsAsUnread(user, ms[i]) then 1 else 0)
  {
    assert ms[..i + 1][..i] == ms[..i];
  }

  /** The summaries as the loop leaves them: one per contact seen in `ms[..i]`, each
      with the preview and time of its first row and the unread rows so far. */
  ghost predicate Tracks(user: string, ms: seq<Row>, i: nat, conv: Conversation)
    requires i <= |ms|
  {
    && HasContact(user, ms[..i], conv.contact)
    && HasContact(user, ms, conv.contact)
    && FirstWith(user, ms, conv.contact) < i
    && conv.lastMessagePreview == ms[FirstWith(user, ms, conv.contact)].content
    && conv.lastTimestamp == ms[FirstWith(user, ms, conv.contact)].timestamp
    && conv.unreadCount == Unread(user, ms[..i], conv.contact)
  }

  /** One more row leaves an existing summary's preview and time alone and counts the
      row against it when the row is its contact's and is unread. */
  lemma TracksStep(user: string, ms: seq<Row>, i: nat, conv: Conversation)
    requires i < |ms| && Tracks(user, ms, i, conv)
    ensures Tracks(user, ms, i + 1, conv.(unreadCount := conv.unreadCount +
      (if Contact(user, ms[i]) == conv.contact && CountsAsUnread(user, ms[i]) then 1 else 0)))
  {
    PrefixContacts(user, ms, i, conv.contact);
    UnreadStep(user, ms, i, conv.contact);
  }

  /** The row that first brings in a contact starts that contact's summary. */
  lemma TracksNew(user: string, ms: seq<Row>, i: nat)
    requires i < |ms| && !HasContact(user, ms[..i], Contact(user, ms[i]))
    ensures Tracks(user, ms, i + 1, Conversation(Contact(user, ms[i]), ms[i].content, ms[i].timestamp,
      if CountsAsUnread(user, ms[i]) then 1 else 0))
  {
    var c := Contact(user, ms[i]);
    FirstAtRow(user, ms, i);
    NoContactNoUnread(user, ms[..i], c);
    PrefixContacts(user, ms, i, c);
    UnreadStep(user, ms, i, c);
  }

  ghost predicate AllTrack(user: string, ms: seq<Row>, i: nat, convs: seq<Conversation>)
    requires i <= |ms|
  {
    forall k :: 0 <= k < |convs| ==> Tracks(user, ms, i, convs[k])
  }

  predicate DistinctContacts(convs: seq<Conversation>) {
    forall a, b :: 0 <= a < b < |convs| ==> convs[a].contact != convs[b].contact
  }

  /** Every contact of `ms` has a summary in `convs`. */
  ghost predicate Covers(user: string, ms: seq<Row>, convs: seq<Conversation>) {
    forall d :: HasContact(user, ms, d) ==> exists j :: 0 <= j < |convs| && convs[j].contact == d
  }

  /** A summary after row `m`: one more unread when `m` is its contact's and unread. */
  function Bumped(user: string, m: Row, conv: Conversation): Conversation {
    conv.(unreadCount := conv.unreadCount + (if Contact(user, m) == conv.contact && CountsAsUnread(user, m) then 1 else 0))
  }

  /** The `forEach` callback: the row's contact gets a summary from this row if it had
      none yet, and the row counts against that summary when it is unread. */
  function Absorb(user: string, convs: seq<Conversation>, m: Row): (r: seq<Conversation>)
    requires DistinctContacts(convs)
    ensures IndexOf(convs, Contact(user, m)) < |convs| ==> |r| == |convs|
    ensures IndexOf(convs, Contact(user, m)) == |convs| ==>
      |r| == |convs| + 1 && r[|convs|] == Bumped(user, m, Conversation(Contact(user, m), m.content, m.timestamp, 0))
    ensures forall j :: 0 <= j < |convs| ==> r[j] == Bumped(user, m, convs[j])
    ensures DistinctContacts(r)
  {
    var c := Contact(user, m);
    var k := IndexOf(convs, c);
    var grown := if k == |convs| then convs + [Conversation(c, m.content, m.timestamp, 0)] else convs;
    if CountsAsUnread(user, m) then grown[k := grown[k].(unreadCount := grown[k].unreadCount + 1)] else grown
  }

  /** One row keeps every summary tracking the longer prefix. */
  lemma AbsorbTracks(user: string, ms: seq<Row>, i: nat, convs: seq<Conversation>)
    requires i < |ms| && AllTrack(user, ms, i, convs) && Covers(user, ms[..i], convs) && DistinctContacts(convs)
    ensures AllTrack(user, ms, i + 1, Absorb(user, convs, ms[i]))
  {
    var r := Absorb(user, convs, ms[i]);
    forall j | 0 <= j < |r| ensures Tracks(user, ms, i + 1, r[j]) {
      if j < |convs| {
        assert Tracks(user, ms, i, convs[j]);
        TracksStep(user, ms, i, convs[j]);
      } else {
        TracksNew(user, ms, i);
      }
    }
  }

  /** One row keeps every contact of the longer prefix covered. */
  lemma AbsorbCovers(user: string, ms: seq<Row>, i: nat, convs: seq<Conversation>)
    requires i < |ms| && Covers(user, ms[..i], convs) && DistinctContacts(convs)
    ensures Covers(user, ms[..i + 1], Absorb(user, convs, ms[i]))
  {
    var r := Absorb(user, convs, ms[i]);
    var seen := ms[..i + 1];
    forall d | HasContact(user, seen, d)
      ensures exists j :: 0 <= j < |r| && r[j].contact == d
    {
      PrefixContacts(user, ms, i, d);
      if HasContact(user, ms[..i], d) {
        var j :| 0 <= j < |convs| && convs[j].contact == d;
        assert r[j].contact == d;
      } else {
        var k := IndexOf(convs, d);
        assert r[k].contact == d;
      }
    }
  }

  /** The `forEach` over the rows followed by the sort of `Object.values(conversations)`. */
  method BuildInbox(user: string, ms: seq<Row>) returns (inbox: seq<Conversation>)
    ensures IsInboxOf(user, ms, inbox)
  {
    var convs: seq<Conversation> := [];
    var i := 0;
    while i < |ms|
      invariant 0 <= i <= |ms|
      invariant AllTrack(user, ms, i, convs)
      invariant Covers(user, ms[..i], convs)
      invariant DistinctContacts(convs)
    {
      AbsorbTracks(user, ms, i, convs);
      AbsorbCovers(user, ms, i, convs);
      convs := Absorb(user, convs, ms[i]);
      i := i + 1;
    }
    assert ms[..i] == ms;
    inbox := SortBy(convs, NegLastTimestamp);
    Summaries(user, ms, convs, inbox);
  }

  /** Sorting the finished summaries keeps exactly one correct summary per contact. */
  lemma Summaries(user: string, ms: seq<Row>, convs: seq<Conversation>, inbox: seq<Conversation>)
    requires AllTrack(user, ms, |ms|, convs)
    requires Covers(user, ms[..|ms|], convs)
    requires DistinctContacts(convs)
    requires multiset(inbox) == multiset(convs) && SortedBy(inbox, NegLastTimestamp)
    ensures IsInboxOf(user, ms, inbox)
  {
    assert ms[..|ms|] == ms;
    forall k | 0 <= k < |convs| ensures convs[k] == Summary(user, ms, convs[k].contact) {
      assert Tracks(user, ms, |ms|, convs[k]);
    }
    PermutationMembers(convs, inbox);
    PermutationMembers(inbox, convs);
    assert Distinct(convs);
    PermutationKeepsDistinct(convs, inbox);
    forall c | HasContact(user, ms, c) ensures exists k :: 0 <= k < |inbox| && inbox[k].contact == c {
      var j :| 0 <= j < |convs| && convs[j].contact == c;
      assert convs[j] in inbox;
    }
    forall i, j | 0 <= i < j < |inbox| ensures inbox[i].lastTimestamp >= inbox[j].lastTimestamp {
      assert NegLastTimestamp(inbox[i]) <= NegLastTimestamp(inbox[j]);
    }
  }

  /** With the store's newest-first order, each summary's preview and time belong to
      the contact's latest message. */
  lemma SummaryIsLatest(user: string, ms: seq<Row>, c: string, j: nat)
    requires SortedBy(ms, NegTimestamp)
    requires j < |ms| && Contact(user, ms[j]) == c
    ensures HasContact(user, ms, c)
    ensures Summary(user, ms, c).lastTimestamp >= ms[j].timestamp
  {
    var k := FirstWith(user, ms, c);
    assert k <= j;
    if k < j {
      assert NegTimestamp(ms[k]) <= NegTimestamp(ms[j]);
    }
  }

  /** The rows from `c` to `user` that are not read. */
  function UnreadFrom(user: string, ms: seq<Row>, c: string): seq<Row> {
    Filter(ms, (m: Row) => m.sender == c && m.recipient == user && m.status != StatusRead)
  }

  /** For any contact other than the user, the unread count is the number of that
      contact's messages to the user whose status is not "read"; the user's own
      messages never count. */
  lemma {:induction false} UnreadCountsIncomingOnly(user: string, ms: seq<Row>, c: string)
    requires c != user
    ensures Unread(user, ms, c) == |UnreadFrom(user, ms, c)|
  {
    if ms != [] {
      var n := |ms|;
      UnreadCountsIncomingOnly(user, ms[..n - 1], c);
      assert ms == ms[..n - 1] + [ms[n - 1]];
    }
  }

  /** The names a plain object `{}` inherits from `Object.prototype`: looking one up in
      an empty `conversations` object finds a value that is not undefined. */
  const PrototypeNames: set<string> := {
    "constructor", "__proto__", "toString", "toLocaleString", "valueOf", "hasOwnProperty",
    "isPrototypeOf", "propertyIsEnumerable", "__defineGetter__", "__defineSetter__",
    "__lookupGetter__", "__lookupSetter__"}

  /** The callback as written, on a plain object: for a contact named like an inherited
      property, `!conversations[contact]` is false, so no summary is created, and the
      `unread_count++` lands on the inherited value instead. */
  function AbsorbAsWritten(user: string, convs: seq<Conversation>, m: Row): (r: seq<Conversation>)
    requires DistinctContacts(convs)
    ensures DistinctContacts(r)
    ensures Contact(user, m) in PrototypeNames ==> r == convs
  {
    if Contact(user, m) in PrototypeNames then convs else Absorb(user, convs, m)
  }

  /** The `forEach` as written. */
  function GroupAsWritten(user: string, ms: seq<Row>): (r: seq<Conversation>)
    ensures DistinctContacts(r)
  {
    if ms == [] then [] else AbsorbAsWritten(user, GroupAsWritten(user, ms[..|ms| - 1]), ms[|ms| - 1])
  }

  /** The inbox the handler sends as written: newest first, and never a summary for a
      contact named like an inherited property. */
  function InboxAsWritten(user: string, ms: seq<Row>): (r: seq<Conversation>)
    ensures SortedBy(r, NegLastTimestamp)
    ensures forall k :: 0 <= k < |r| ==> r[k].contact !in PrototypeNames
  {
    var grouped := GroupAsWritten(user, ms);
    var r := SortBy(grouped, NegLastTimestamp);
    PrototypeContactsNeverListed(user, ms);
    PermutationMembers(grouped, r);
    r
  }

  /** As written, no summary is ever built for a contact named like an inherited
      property, however many messages the user exchanged with that contact. */
  lemma {:induction false} PrototypeContactsNeverListed(user: string, ms: seq<Row>)
    ensures forall k :: 0 <= k < |GroupAsWritten(user, ms)| ==> GroupAsWritten(user, ms)[k].contact !in PrototypeNames
  {
    if ms != [] {
      var front := ms[..|ms| - 1];
      PrototypeContactsNeverListed(user, front);
    }
  }

  /** The input that shows it: one message from a user named "constructor" to "alice".
      The handler as written sends "alice" an empty inbox, while the inbox the handler
      is meant to build (`IsInboxOf`, met by `BuildInbox`) holds that conversation. */
  lemma PrototypeContactLost()
    ensures var ms := [Row("m1", "constructor", "alice", "hi", StatusSent, 1)];
      && HasContact("alice", ms, "constructor")
      && InboxAsWritten("alice", ms) == []
      && forall inbox: seq<Conversation> :: IsInboxOf("alice", ms, inbox) ==> exists k :: 0 <= k < |inbox| && inbox[k].contact == "constructor"
  {
    var ms := [Row("m1", "constructor", "alice", "hi", StatusSent, 1)];
    assert Contact("alice", ms[0]) == "constructor";
    assert GroupAsWritten("alice", ms[..0]) == [];
  }
}

=== FILE: message_store.dfy ===
/** MessageStore.ts of the command-line client: a local history per user, one JSON
    file each, kept as the sequence of messages the file holds. Saving appends a
    message unless its id is already there; loading picks one conversation out of the
    file and orders it by time. */
module MessageStore {

  import opened Text
  import opened Sequences
  import opened Protocol

  /** What `JSON.parse` makes of a history file: its messages, or a parse failure. */
  datatype HistoryFile = Parsed(messages: seq<DirectMessage>) | Unparseable

  /** The file a user's history lives in, `history_<name>.json`, named by the
      lower-cased username. */
  function FileKey(username: string): (r: string)
    ensures |r| == |username|
    ensures forall i :: 0 <= i < |r| ==> r[i] == LowerChar(username[i])
    ensures Lower(r) == r
  {
    LowerIdempotent(username);
    Lower(username)
  }

  predicate HasMessageId(history: seq<DirectMessage>, id: string) {
    exists i :: 0 <= i < |history| && history[i].id == id
  }

  /** A message between the two lower-cased names, in either direction, with the
      message's own names lower-cased too. */
  predicate Between(m: DirectMessage, userKey: string, contactKey: string) {
    (Lower(m.from) == userKey && Lower(m.to) == contactKey) || (Lower(m.from) == contactKey && Lower(m.to) == userKey)
  }

  /** The parsed send time, `new Date(m.timestamp).getTime()`. */
  function SentAt(m: DirectMessage): int {
    m.timestamp
  }

  /** The messages of `history` between the two names, each as often as in `history`. */
  function Conversation(history: seq<DirectMessage>, userKey: string, contactKey: string): (r: seq<DirectMessage>)
    ensures SubsequenceOf(r, history)
    ensures forall m :: m in r <==> m in history && Between(m, userKey, contactKey)
    ensures forall m :: multiset(r)[m] == if Between(m, userKey, contactKey) then multiset(history)[m] else 0
  {
    Filter(history, (m: DirectMessage) => Between(m, userKey, contactKey))
  }

  class LocalStore {
    /** The data directory: file name key to file contents. */
    var files: map<string, HistoryFile>

    constructor ()
      ensures files == map[]
    {
      files := map[];
    }

    /** The history a user's file yields: nothing when the file is missing or does not
      parse. */
    function Stored(username: string): (h: seq<DirectMessage>)
      reads this
      ensures FileKey(username) !in files ==> h == []
      ensures FileKey(username) in files ==> h == (match files[FileKey(username)] case Parsed(ms) => ms case Unparseable => [])
    {
      if FileKey(username) in files && files[FileKey(username)].Parsed? then files[FileKey(username)].messages else []
    }

    /** `saveMessageLocally`: the message goes at the end of the user's history unless a
      message with its id is already there, in which case no file is written. A file
      that does not parse is replaced by a history holding just this message. No other
      user's file changes. */
    method SaveMessageLocally(username: string, message: DirectMessage)
      modifies this
      ensures HasMessageId(old(Stored(username)), message.id) ==> files == old(files)
      ensures !HasMessageId(old(Stored(username)), message.id) ==>
        files == old(files)[FileKey(username) := Parsed(old(Stored(username)) + [message])]
      ensures Stored(username) == old(Stored(username)) || Stored(username) == old(Stored(username)) + [message]
      ensures HasMessageId(Stored(username), message.id)
      ensures forall other :: FileKey(other) != FileKey(username) ==> Stored(other) == old(Stored(other))
    {
      var key := FileKey(username);
      var history: seq<DirectMessage> := [];
      if key in files && files[key].Parsed? {
        history := files[key].messages;
      }
      if !HasMessageId(history, message.id) {
        history := history + [message];
        assert history[|history| - 1].id == message.id;
        files := files[key := Parsed(history)];
      }
    }

    /** `loadLocalHistory`: the conversation with `contact`, names compared lower-cased,
      in ascending time order; nothing added and nothing lost; empty when the file is
      missing or does not parse. */
    function LoadLocalHistory(username: string, contact: string): (r: seq<DirectMessage>)
      reads this
      ensures SortedBy(r, SentAt)
      ensures multiset(r) == multiset(Conversation(Stored(username), Lower(username), Lower(contact)))
      ensures forall i :: 0 <= i < |r| ==> Between(r[i], Lower(username), Lower(contact)) && r[i] in Stored(username)
      ensures Stored(username) == [] ==> r == []
    {
      var conversation := Conversation(Stored(username), Lower(username), Lower(contact));
      var r := SortBy(conversation, SentAt);
      PermutationMembers(conversation, r);
      r
    }
  }

  /** Usernames that differ only in letter case share one file and one history. */
  lemma CaseVariantsShareHistory(store: LocalStore, a: string, b: string, contact: string)
    requires Lower(a) == Lower(b)
    ensures store.Stored(a) == store.Stored(b)
    ensures store.LoadLocalHistory(a, contact) == store.LoadLocalHistory(b, contact)
  {
  }

  /** A stored message of the conversation is always among the loaded ones. */
  lemma StoredMessageIsLoaded(store: LocalStore, username: string, contact: string, m: DirectMessage)
    requires m in store.Stored(username) && Between(m, Lower(username), Lower(contact))
    ensures m in store.LoadLocalHistory(username, contact)
  {
    var conversation := Conversation(store.Stored(username), Lower(username), Lower(contact));
    assert m in multiset(conversation);
    assert m in multiset(store.LoadLocalHistory(username, contact));
  }
}

=== FILE: message_table.dfy ===
/** The persisted `messages` table of socketHandler.js, held in memory as a sequence of
    rows, and the reads and updates the handlers issue against it. */
module MessageTable {

  import opened Wrappers
  import opened Sequences
  import opened Protocol

  datatype Row = Row(
    id: string,
    sender: string,
    recipient: string,
    content: string,
    status: string,
    timestamp: int)

  const StatusSent := "sent"
  const StatusDelivered := "delivered"
  const StatusRead := "read"
  const StatusPending := "pending"
  const HistoryLimit := 50

  /** `data.status || 'sent'`: a missing or empty status is stored as "sent". */
  function InitialStatus(status: Option<string>): (s: string)
    ensures s != []
    ensures status.Some? && status.value != [] ==> s == status.value
    ensures !(status.Some? && status.value != []) ==> s == StatusSent
  {
    if status.Some? && status.value != [] then status.value else StatusSent
  }

  /** The row `saveMessage` inserts for an admitted payload. */
  function RowOf(m: DirectMessage): (r: Row)
    ensures r.id == m.id && r.sender == m.from && r.recipient == m.to
    ensures r.content == m.content && r.timestamp == m.timestamp
    ensures r.status == InitialStatus(m.status)
  {
    Row(m.id, m.from, m.to, m.content, InitialStatus(m.status), m.timestamp)
  }

  predicate HasId(rows: seq<Row>, id: string) {
    exists i :: 0 <= i < |rows| && rows[i].id == id
  }

  /** The primary key: no two rows share an id. */
  predicate UniqueIds(rows: seq<Row>) {
    forall i, j :: 0 <= i < j < |rows| ==> rows[i].id != rows[j].id
  }

  /** Appending a row whose id is not yet taken keeps ids unique. */
  lemma InsertKeepsUniqueIds(rows: seq<Row>, r: Row)
    requires UniqueIds(rows) && !HasId(rows, r.id)
    ensures UniqueIds(rows + [r])
    ensures HasId(rows + [r], r.id)
  {
    assert (rows + [r])[|rows|].id == r.id;
  }

  /** `update({ status }).eq('id', id)`: the row with that id, if any, takes the new
      status; every other row, and every other column, is untouched. */
  function SetStatus(rows: seq<Row>, id: string, status: string): (r: seq<Row>)
    ensures |r| == |rows|
    ensures forall i :: 0 <= i < |rows| && rows[i].id != id ==> r[i] == rows[i]
    ensures forall i :: 0 <= i < |rows| && rows[i].id == id ==> r[i] == rows[i].(status := status)
    ensures forall i :: 0 <= i < |rows| ==> r[i].id == rows[i].id
  {
    seq(|rows|, i requires 0 <= i < |rows| => if rows[i].id == id then rows[i].(status := status) else rows[i])
  }

  /** Changing statuses never changes which ids are present. */
  lemma SameIdsKeepUniqueness(rows: seq<Row>, r: seq<Row>)
    requires UniqueIds(rows) && |r| == |rows|
    requires forall i :: 0 <= i < |rows| ==> r[i].id == rows[i].id
    ensures UniqueIds(r)
    ensures forall id :: HasId(r, id) <==> HasId(rows, id)
  {
    forall id | HasId(rows, id) ensures HasId(r, id) {
      var i :| 0 <= i < |rows| && rows[i].id == id;
      assert r[i].id == id;
    }
  }

  /** A message of the conversation between exactly `user` and `contact`, in either
      direction (names compared exactly, as the store's `eq` filters do). */
  predicate Between(m: Row, user: string, contact: string) {
    (m.sender == user && m.recipient == contact) || (m.sender == contact && m.recipient == user)
  }

  function ConversationRows(rows: seq<Row>, user: string, contact: string): (r: seq<Row>)
    ensures SubsequenceOf(r, rows)
    ensures forall m :: multiset(r)[m] == if Between(m, user, contact) then multiset(rows)[m] else 0
    ensures forall m :: m in r <==> m in rows && Between(m, user, contact)
  {
    Filter(rows, m => Between(m, user, contact))
  }

  function Timestamp(m: Row): int {
    m.timestamp
  }

  function Min(a: int, b: int): int {
    if a <= b then a else b
  }

  /** `get_chat_history`'s query: the conversation in ascending time order, cut after
      50 rows. The result is ordered, holds only rows of that conversation, and when
      the conversation is short it is the whole conversation. */
  function History(rows: seq<Row>, user: string, contact: string): (r: seq<Row>)
    ensures |r| <= HistoryLimit
    ensures forall i :: 0 <= i < |r| ==> Between(r[i], user, contact) && r[i] in rows
    ensures SortedBy(r, Timestamp)
    ensures |r| == Min(HistoryLimit, |ConversationRows(rows, user, contact)|)
    ensures multiset(r) <= multiset(ConversationRows(rows, user, contact))
    ensures |ConversationRows(rows, user, contact)| <= HistoryLimit ==>
      multiset(r) == multiset(ConversationRows(rows, user, contact))
  {
    var conversation := ConversationRows(rows, user, contact);
    var ordered := SortBy(conversation, Timestamp);
    var k := Min(HistoryLimit, |ordered|);
    SortedCut(conversation, ordered, Timestamp, k);
    assert ordered == ordered[..k] + ordered[k..];
    assert multiset(ordered) == multiset(ordered[..k]) + multiset(ordered[k..]);
    ordered[..k]
  }

  /** The cut keeps the oldest rows: no row of the conversation left out of the
      history is earlier than a row that made it in. */
  lemma HistoryKeepsOldest(rows: seq<Row>, user: string, contact: string, m: Row)
    requires m in ConversationRows(rows, user, contact) && m !in History(rows, user, contact)
    ensures forall i :: 0 <= i < |History(rows, user, contact)| ==>
      History(rows, user, contact)[i].timestamp <= m.timestamp
  {
    var ordered := SortBy(ConversationRows(rows, user, contact), Timestamp);
    var h := History(rows, user, contact);
    assert h == ordered[..|h|];
    assert m in multiset(ordered);
    var j :| 0 <= j < |ordered| && ordered[j] == m;
    assert j >= |h|;
  }

  /** The read-marking update after a history fetch: rows sent by `contact` to `user`
      whose status is exactly "pending" become "read". */
  predicate MarkedByFetch(m: Row, user: string, contact: string) {
    m.recipient == user && m.sender == contact && m.status == StatusPending
  }

  function MarkRead(rows: seq<Row>, user: string, contact: string): (r: seq<Row>)
    ensures |r| == |rows|
    ensures forall i :: 0 <= i < |rows| ==> r[i].id == rows[i].id
    ensures forall i :: 0 <= i < |rows| && MarkedByFetch(rows[i], user, contact) ==>
      r[i] == rows[i].(status := StatusRead)
    ensures forall i :: 0 <= i < |rows| && !MarkedByFetch(rows[i], user, contact) ==> r[i] == rows[i]
  {
    seq(|rows|, i requires 0 <= i < |rows| =>
      if MarkedByFetch(rows[i], user, contact) then rows[i].(status := StatusRead) else rows[i])
  }

  /** As written, the update touches only "pending" rows: a "sent" or "delivered" row
      is never marked read by a fetch. */
  lemma MarkReadSkipsSentAndDelivered(rows: seq<Row>, user: string, contact: string, i: nat)
    requires i < |rows| && (rows[i].status == StatusSent || rows[i].status == StatusDelivered)
    ensures MarkRead(rows, user, contact)[i] == rows[i]
  {
  }

  /** Fetching twice marks nothing more than fetching once. */
  lemma MarkReadIdempotent(rows: seq<Row>, user: string, contact: string)
    ensures MarkRead(MarkRead(rows, user, contact), user, contact) == MarkRead(rows, user, contact)
  {
  }
}

=== FILE: ordered_map.dfy ===
/** A JavaScript `Map` with string keys: a finite map plus the order in which its keys
    were first inserted, which is the order `Array.from(m.keys())` reports. */
module OrderedMap {

  import opened Wrappers
  import opened Sequences

  /** The keys of `s` other than `k`, in their original order. */
  function Remove(s: seq<string>, k: string): (r: seq<string>)
    ensures SubsequenceOf(r, s)
    ensures forall x :: multiset(r)[x] == if x == k then 0 else multiset(s)[x]
    ensures forall x :: x in r <==> x in s && x != k
    ensures k !in s ==> r == s
    ensures Distinct(s) ==> Distinct(r)
  {
    var keep := (x: string) => x != k;
    assert k !in s ==> Filter(s, keep) == s by {
      if k !in s {
        FilterKeepsAll(s, keep);
      }
    }
    assert Distinct(s) ==> Distinct(Filter(s, keep)) by {
      if Distinct(s) {
        FilterKeepsDistinct(s, keep);
      }
    }
    Filter(s, keep)
  }

  datatype OMap<V> = OMap(order: seq<string>, entries: map<string, V>) {

    /** Every key appears once in `order`, and `order` lists exactly the keys. */
    ghost predicate Valid() {
      Distinct(order) && forall k :: k in entries <==> k in order
    }

    predicate Has(k: string) {
      k in entries
    }

    function Get(k: string): (r: Option<V>)
      ensures r.Some? <==> Has(k)
      ensures r.Some? ==> r.value == entries[k]
    {
      if k in entries then Some(entries[k]) else None
    }

    /** `Array.from(m.keys())`: the keys in the order they were first set. */
    function Keys(): (r: seq<string>)
      requires Valid()
      ensures r == order
      ensures Distinct(r)
      ensures forall k :: k in r <==> Has(k)
    {
      order
    }

    /** `m.set(k, v)`: `k` now maps to `v`, every other key keeps its value, an existing
        key keeps its place in the order and a new key goes last. */
    function Set(k: string, v: V): (r: OMap<V>)
      requires Valid()
      ensures r.Valid()
      ensures r.Get(k) == Some(v)
      ensures forall x :: x != k ==> r.Get(x) == Get(x)
      ensures Has(k) ==> r.order == order
      ensures !Has(k) ==> r.order == order + [k]
    {
      if k in entries then OMap(order, entries[k := v]) else OMap(order + [k], entries[k := v])
    }

    /** `m.delete(k)`: `k` is gone, every other key keeps its value and its relative order. */
    function Delete(k: string): (r: OMap<V>)
      requires Valid()
      ensures r.Valid()
      ensures !r.Has(k)
      ensures forall x :: x != k ==> r.Get(x) == Get(x)
      ensures r.order == Remove(order, k)
    {
      OMap(Remove(order, k), entries - {k})
    }
  }

  function Empty<V>(): (m: OMap<V>)
    ensures m.Valid() && m.Keys() == []
  {
    OMap([], map[])
  }
}

=== FILE: presence.dfy ===
/** The presence registry both server snapshots keep in `userSockets`: normalised
    username to the id of the connection that owns it, plus the views built on it. */
module Presence {

  import opened Wrappers
  import opened Text
  import opened OrderedMap
  import opened Sequences
  import opened Protocol

  type Registry = OMap<SocketId>

  /** Authenticated connection or successful login: the normalised name now belongs
      to this connection, replacing any earlier one; no other name changes. */
  function Register(reg: Registry, username: string, sid: SocketId): (r: Registry)
    requires reg.Valid()
    ensures r.Valid()
    ensures r.Get(Normalize(username)) == Some(sid)
    ensures forall k :: k != Normalize(username) ==> r.Get(k) == reg.Get(k)
    ensures reg.Has(Normalize(username)) ==> r.order == reg.order
    ensures !reg.Has(Normalize(username)) ==> r.order == reg.order + [Normalize(username)]
  {
    reg.Set(Normalize(username), sid)
  }

  /** Disconnect of an authenticated connection: the entry goes only if it still names
      this very connection; a connection that was superseded removes nothing. */
  function Unregister(reg: Registry, username: string, sid: SocketId): (r: Registry)
    requires reg.Valid()
    ensures r.Valid()
    ensures reg.Get(Normalize(username)) == Some(sid) ==> !r.Has(Normalize(username))
    ensures reg.Get(Normalize(username)) != Some(sid) ==> r == reg
    ensures forall k :: k != Normalize(username) ==> r.Get(k) == reg.Get(k)
  {
    var key := Normalize(username);
    if reg.Get(key) == Some(sid) then reg.Delete(key) else reg
  }

  /** The race the identity guard exists for: a user reconnects on a new connection
      before the old connection's disconnect runs; the late disconnect leaves the user
      online on the new connection. */
  lemma LateDisconnectKeepsReconnect(reg: Registry, username: string, oldSid: SocketId, newSid: SocketId)
    requires reg.Valid() && oldSid != newSid
    ensures Unregister(Register(reg, username, newSid), username, oldSid) == Register(reg, username, newSid)
    ensures Unregister(Register(reg, username, newSid), username, oldSid).Get(Normalize(username)) == Some(newSid)
  {
  }

  /** A connect immediately followed by its own disconnect leaves the name offline
      and every other name as it was. */
  lemma ConnectThenDisconnect(reg: Registry, username: string, sid: SocketId)
    requires reg.Valid()
    ensures !Unregister(Register(reg, username, sid), username, sid).Has(Normalize(username))
    ensures forall k :: k != Normalize(username) ==>
      Unregister(Register(reg, username, sid), username, sid).Get(k) == reg.Get(k)
  {
  }

  /** Two logins under names with the same key: the later connection owns the slot,
      and the registry still holds one entry for that key. */
  lemma LatestLoginWins(reg: Registry, name1: string, sid1: SocketId, name2: string, sid2: SocketId)
    requires reg.Valid() && Normalize(name1) == Normalize(name2)
    ensures Register(Register(reg, name1, sid1), name2, sid2).Get(Normalize(name1)) == Some(sid2)
    ensures |Register(Register(reg, name1, sid1), name2, sid2).Keys()| == |Register(reg, name1, sid1).Keys()|
  {
  }

  /** `get_online_users`: the registered keys other than the requester's own, each
      once, in the registry's insertion order. */
  function OnlineExcept(reg: Registry, requester: string): (r: seq<string>)
    requires reg.Valid()
    ensures SubsequenceOf(r, reg.order)
    ensures Distinct(r)
    ensures forall u :: u in r <==> reg.Has(u) && u != Normalize(requester)
  {
    Remove(reg.Keys(), Normalize(requester))
  }

  datatype StatusEntry = StatusEntry(username: string, status: string)

  const Online := "online"
  const Offline := "offline"

  /** The users `get_all_users_status` reports: non-empty names whose key is not the
      requester's. */
  predicate Listed(u: UserRow, me: string) {
    u.username != [] && Normalize(u.username) != Normalize(me)
  }

  function ListedUsers(users: seq<UserRow>, me: string): (r: seq<UserRow>)
    ensures SubsequenceOf(r, users)
    ensures forall u :: multiset(r)[u] == if Listed(u, me) then multiset(users)[u] else 0
    ensures forall u :: u in r <==> u in users && Listed(u, me)
    ensures forall i :: 0 <= i < |r| ==> Listed(r[i], me)
  {
    Filter(users, u => Listed(u, me))
  }

  /** A user's entry: "online" exactly when its key is registered. */
  function EntryOf(u: UserRow, reg: Registry): (e: StatusEntry)
    ensures e.username == u.username
    ensures e.status == (if reg.Has(Normalize(u.username)) then Online else Offline)
  {
    StatusEntry(u.username, if reg.Has(Normalize(u.username)) then Online else Offline)
  }

  /** One status entry per listed user, in order, "online" exactly when its key is
      registered. */
  function Statuses(listed: seq<UserRow>, reg: Registry, me: string): (r: seq<StatusEntry>)
    requires forall i :: 0 <= i < |listed| ==> Listed(listed[i], me)
    ensures |r| == |listed|
    ensures forall i :: 0 <= i < |r| ==>
      && r[i].username == listed[i].username
      && r[i].status == (if reg.Has(Normalize(r[i].username)) then Online else Offline)
    ensures forall i :: 0 <= i < |r| ==> r[i].username != [] && Normalize(r[i].username) != Normalize(me)
  {
    var r := seq(|listed|, i requires 0 <= i < |listed| => EntryOf(listed[i], reg));
    assert forall i :: 0 <= i < |r| ==> r[i] == EntryOf(listed[i], reg) && Listed(listed[i], me);
    r
  }

  /** `get_all_users_status`: the listed users in table order, each "online" exactly
      when its key is registered. */
  function StatusList(users: seq<UserRow>, reg: Registry, me: string): (r: seq<StatusEntry>)
    ensures |r| == |ListedUsers(users, me)|
    ensures forall i :: 0 <= i < |r| ==>
      && r[i].username == ListedUsers(users, me)[i].username
      && r[i].status == (if reg.Has(Normalize(r[i].username)) then Online else Offline)
    ensures forall i :: 0 <= i < |r| ==> r[i].username != [] && Normalize(r[i].username) != Normalize(me)
  {
    Statuses(ListedUsers(users, me), reg, me)
  }

  /** Every listed user of the table is reported, with its presence. */
  lemma StatusListReportsListed(users: seq<UserRow>, reg: Registry, me: string, u: UserRow)
    requires u in users && Listed(u, me)
    ensures exists i :: (0 <= i < |StatusList(users, reg, me)|
      && StatusList(users, reg, me)[i] ==
           StatusEntry(u.username, if reg.Has(Normalize(u.username)) then Online else Offline))
  {
    var listed := ListedUsers(users, me);
    assert u in listed;
    var i :| 0 <= i < |listed| && listed[i] == u;
    assert StatusList(users, reg, me)[i].username == u.username;
  }
}

=== FILE: protocol.dfy ===
/** What travels between a client and the router: identities bound to connections,
    direct-message payloads, and the connection objects themselves. */
module Protocol {

  import opened Wrappers

  /** A socket.io connection id; never empty, so always truthy in JavaScript. */
  type SocketId = s: string | s != [] witness "0"

  /** The claims of a verified credential token: `{ id, username }`. */
  datatype Identity = Identity(id: string, username: string)

  /** The `message` payload. `status` is optional on the wire; `timestamp` is the
      sender's clock reading as an integer. */
  datatype DirectMessage = DirectMessage(
    id: string,
    from: string,
    to: string,
    content: string,
    status: Option<string>,
    timestamp: int)

  /** A row of the users table. */
  datatype UserRow = UserRow(id: string, username: string, passwordHash: string)

  /** A live connection. `user` is bound by the token middleware or by a later login,
      and stays `None` for a guest. */
  class Socket {
    const id: SocketId
    var user: Option<Identity>

    constructor (id: SocketId, user: Option<Identity>)
      ensures this.id == id && this.user == user
    {
      this.id := id;
      this.user := user;
    }
  }

  /** What the token middleware learns from a handshake: no token, a token the JWT
      check accepted (with its claims), or one it refused. */
  datatype Handshake = NoToken | TokenAccepted(claims: Identity) | TokenRefused

  const AuthenticationError := "Authentication error"

  /** The middleware: a refused token rejects the connection; an accepted one binds
      its claims; no token admits an anonymous connection for register/login. */
  function Authenticate(h: Handshake): (r: Result<Option<Identity>, string>)
    ensures r.Failure? <==> h.TokenRefused?
    ensures r.Failure? ==> r.error == AuthenticationError
    ensures r.Success? ==> (r.value.Some? <==> h.TokenAccepted?)
    ensures h.TokenAccepted? ==> r == Success(Some(h.claims))
  {
    match h
    case NoToken => Success(None)
    case TokenAccepted(claims) => Success(Some(claims))
    case TokenRefused => Failure(AuthenticationError)
  }
}

=== FILE: router.dfy ===
/** The state and handlers that socketHandler.js and socketHandler.ts share line for
    line: the presence registry `userSockets`, the rate clock `lastMessageTime`, the
    users table, and the connection, login binding, admission, routing, status-query
    and disconnect logic built on them. */
module Router {

  import opened Wrappers
  import opened Text
  import opened OrderedMap
  import opened Sequences
  import opened Protocol
  import opened Admission
  import opened Presence
  import opened Events

  const ErrUserNotFound := "User not found"
  const ErrInvalidPassword := "Invalid password"
  const ErrLoginFailed := "Login failed"
  const ErrUsersStatus := "Failed to fetch users status"

  /** `select('*').eq('username', username)`: the rows whose name is exactly `username`,
      in table order. */
  function UsersNamed(users: seq<UserRow>, username: string): (r: seq<UserRow>)
    ensures SubsequenceOf(r, users)
    ensures forall u :: multiset(r)[u] == if u.username == username then multiset(users)[u] else 0
    ensures forall u :: u in r <==> u in users && u.username == username
    ensures forall i :: 0 <= i < |r| ==> r[i].username == username
  {
    Filter(users, (u: UserRow) => u.username == username)
  }

  /** The notification text, `User ${data.to} is offline.` */
  function OfflineNotice(to: string): string {
    "User " + to + " is offline."
  }

  /** Routing of an admitted message: to the connection registered under the
      recipient's key when there is one; otherwise the sender hears that the recipient,
      named as the payload wrote it, is offline. */
  function Routing(reg: Registry, a: Admitted): (out: seq<Emit>)
    ensures out != []
    ensures out[0].SendTo? <==> reg.Has(a.recipient)
    ensures reg.Has(a.recipient) ==> out == [SendTo(reg.entries[a.recipient], MessageEvent(a.message))]
    ensures !reg.Has(a.recipient) ==>
      && |out| == 2
      && out[0] == Reply(Notification(OfflineNotice(a.message.to)))
      && out[1] == Reply(UserStatus(a.message.to, Offline))
  {
    match reg.Get(a.recipient)
    case Some(target) => [SendTo(target, MessageEvent(a.message))]
    case None => [Reply(Notification(OfflineNotice(a.message.to))), Reply(UserStatus(a.message.to, Offline))]
  }

  /** A message is delivered to nobody but the recipient's registered connection, and
      the sender is never sent its own message back. */
  lemma RoutingReachesOnlyRecipient(reg: Registry, a: Admitted, e: Emit)
    requires reg.Valid() && e in Routing(reg, a) && e.SendTo?
    ensures reg.Get(a.recipient) == Some(e.target)
    ensures e.event == MessageEvent(a.message)
  {
  }

  class Hub {
    var userSockets: Registry
    var lastMessageTime: map<string, int>
    var users: seq<UserRow>

    ghost predicate Valid()
      reads this
    {
      userSockets.Valid()
    }

    /** The module-level maps start empty; the users table is whatever is stored. */
    constructor (users: seq<UserRow>)
      ensures Valid()
      ensures userSockets == Empty() && lastMessageTime == map[] && this.users == users
    {
      userSockets := Empty();
      lastMessageTime := map[];
      this.users := users;
    }

    /** The `connection` handler: an authenticated connection takes over its user's
      key and everyone hears the user is online; a guest changes nothing. */
    method OnConnection(socket: Socket) returns (out: seq<Emit>)
      requires Valid()
      modifies this
      ensures Valid()
      ensures lastMessageTime == old(lastMessageTime) && users == old(users)
      ensures socket.user.None? ==> userSockets == old(userSockets) && out == []
      ensures socket.user.Some? ==>
        && userSockets == Register(old(userSockets), socket.user.value.username, socket.id)
        && out == [Broadcast(UserStatus(socket.user.value.username, Online))]
    {
      out := [];
      if socket.user.Some? {
        userSockets := Register(userSockets, socket.user.value.username, socket.id);
        out := [Broadcast(UserStatus(socket.user.value.username, Online))];
      }
    }

    /** A new connection: the token middleware runs first. A refused token rejects the
      connection with "Authentication error", so the `connection` handler never runs
      and nothing changes; otherwise the connection carries what the middleware learned
      and the `connection` handler runs on it. */
    method Connect(sid: SocketId, h: Handshake) returns (socket: Socket, r: Result<seq<Emit>, string>)
      requires Valid()
      modifies this
      ensures Valid() && fresh(socket) && socket.id == sid
      ensures lastMessageTime == old(lastMessageTime) && users == old(users)
      ensures h.TokenRefused? ==> r == Failure(AuthenticationError) && userSockets == old(userSockets)
      ensures h.NoToken? ==> socket.user.None? && r == Success([]) && userSockets == old(userSockets)
      ensures h.TokenAccepted? ==>
        && socket.user == Some(h.claims)
        && userSockets == Register(old(userSockets), h.claims.username, sid)
        && r == Success([Broadcast(UserStatus(h.claims.username, Online))])
    {
      match Authenticate(h)
      case Failure(e) =>
        socket := new Socket(sid, None);
        r := Failure(e);
      case Success(user) =>
        socket := new Socket(sid, user);
        var out := OnConnection(socket);
        r := Success(out);
    }

    /** The state change of a successful `login`: the connection is bound to the row's
      identity and owns that user's key. */
    method SignIn(socket: Socket, row: UserRow)
      requires Valid()
      modifies this, socket
      ensures Valid()
      ensures socket.user == Some(Identity(row.id, row.username))
      ensures userSockets == Register(old(userSockets), row.username, socket.id)
      ensures userSockets.Get(Normalize(row.username)) == Some(socket.id)
      ensures lastMessageTime == old(lastMessageTime) && users == old(users)
    {
      socket.user := Some(Identity(row.id, row.username));
      userSockets := Register(userSockets, row.username, socket.id);
    }

    /** The checks of the `message` handler up to and including the rate limit. The
      sender's clock moves to `now` exactly when every check passes; a refused message
      leaves all state as it was. */
    method Admit(socket: Socket, data: DirectMessage, schemaValid: bool, now: int) returns (r: Result<Admitted, string>)
      requires Valid()
      modifies this
      ensures Valid()
      ensures userSockets == old(userSockets) && users == old(users)
      ensures Screen(socket.user, schemaValid, data).Failure? ==>
        r == Failure(Screen(socket.user, schemaValid, data).error)
      ensures r.Success? <==>
        && Screen(socket.user, schemaValid, data).Success?
        && Tick(old(lastMessageTime), Screen(socket.user, schemaValid, data).value.sender, now).Success?
      ensures r.Success? ==>
        && r == Screen(socket.user, schemaValid, data)
        && lastMessageTime == Tick(old(lastMessageTime), r.value.sender, now).value
      ensures r.Failure? ==> lastMessageTime == old(lastMessageTime)
      ensures r.Failure? && Screen(socket.user, schemaValid, data).Success? ==> r.error == ErrTooFast
    {
      var user := socket.user;
      var clock := lastMessageTime;
      r := Screen(user, schemaValid, data);
      if r.Success? {
        var tick := Tick(clock, r.value.sender, now);
        if tick.Failure? {
          r := Failure(tick.error);
        } else {
          clock := tick.value;
        }
      }
      lastMessageTime := clock;
    }

    /** `get_all_users_status`: silent for a guest, an error when the users query fails,
      otherwise the status list for the requester. */
    method GetAllUsersStatus(socket: Socket, dbError: bool) returns (out: seq<Emit>)
      requires Valid()
      ensures socket.user.None? ==> out == []
      ensures socket.user.Some? && dbError ==> out == [Reply(ErrorEvent(ErrUsersStatus))]
      ensures socket.user.Some? && !dbError ==>
        out == [Reply(AllUsersStatusData(StatusList(users, userSockets, socket.user.value.username)))]
    {
      if socket.user.None? {
        return [];
      }
      if dbError {
        return [Reply(ErrorEvent(ErrUsersStatus))];
      }
      out := [Reply(AllUsersStatusData(StatusList(users, userSockets, socket.user.value.username)))];
    }

    /** `get_online_users`: silent for a guest, otherwise every registered key but the
      requester's own. */
    method GetOnlineUsers(socket: Socket) returns (out: seq<Emit>)
      requires Valid()
      ensures socket.user.None? ==> out == []
      ensures socket.user.Some? ==> out == [Reply(OnlineUsersData(OnlineExcept(userSockets, socket.user.value.username)))]
    {
      if socket.user.None? {
        return [];
      }
      out := [Reply(OnlineUsersData(OnlineExcept(userSockets, socket.user.value.username)))];
    }

    /** The `disconnect` handler: the user goes offline, and everyone hears so, only when
      this connection still owns the user's key. */
    method Disconnect(socket: Socket) returns (out: seq<Emit>)
      requires Valid()
      modifies this
      ensures Valid()
      ensures lastMessageTime == old(lastMessageTime) && users == old(users)
      ensures socket.user.None? ==> userSockets == old(userSockets) && out == []
      ensures socket.user.Some? ==>
        && userSockets == Unregister(old(userSockets), socket.user.value.username, socket.id)
        && out == (if old(userSockets).Get(Normalize(socket.user.value.username)) == Some(socket.id)
                   then [Broadcast(UserStatus(socket.user.value.username, Offline))] else [])
    {
      out := [];
      if socket.user.Some? {
        var name := socket.user.value.username;
        if userSockets.Get(Normalize(name)) == Some(socket.id) {
          out := [Broadcast(UserStatus(name, Offline))];
        }
        userSockets := Unregister(userSockets, name, socket.id);
      }
    }
  }
}

=== FILE: sequences.dfy ===
/** Sequence operations the handlers rely on: `Array.prototype.filter`, and the
    orderings (the store's `order by timestamp` and JavaScript's stable
    `Array.prototype.sort` with a numeric comparator), both sorts modelled as a
    stable insertion sort on an integer key. */
module Sequences {

  /** `r` is `s` with some elements deleted and the others kept in their order (each
      element of `r`, from the back, is matched against the latest element of `s`
      not yet used). */
  predicate SubsequenceOf<T(==)>(r: seq<T>, s: seq<T>)
    decreases |s|
  {
    if r == [] then true
    else if s == [] then false
    else if r[|r| - 1] == s[|s| - 1] then SubsequenceOf(r[..|r| - 1], s[..|s| - 1])
    else SubsequenceOf(r, s[..|s| - 1])
  }

  /** `s.filter(p)`: the elements of `s` that satisfy `p`, in their order, each as
      often as in `s`. */
  function Filter<T(!new)>(s: seq<T>, p: T -> bool): (r: seq<T>)
    ensures |r| <= |s|
    ensures SubsequenceOf(r, s)
    ensures forall x :: x in r <==> x in s && p(x)
    ensures forall x :: multiset(r)[x] == if p(x) then multiset(s)[x] else 0
  {
    if s == [] then []
    else
      var n := |s|;
      var front, last := s[..n - 1], s[n - 1];
      assert s == front + [last];
      var kept := Filter(front, p);
      if p(last) then
        SubsequenceSnoc(kept, front, last);
        kept + [last]
      else
        SubsequenceSkip(kept, front, last);
        kept
  }

  lemma SubsequenceSnoc<T>(r: seq<T>, s: seq<T>, x: T)
    requires SubsequenceOf(r, s)
    ensures SubsequenceOf(r + [x], s + [x])
  {
    assert (r + [x])[..|r|] == r;
    assert (s + [x])[..|s|] == s;
  }

  lemma SubsequenceSkip<T>(r: seq<T>, s: seq<T>, x: T)
    requires SubsequenceOf(r, s) && x !in r
    ensures SubsequenceOf(r, s + [x])
  {
    assert (s + [x])[..|s|] == s;
    assert r != [] ==> r[|r| - 1] in r;
  }

  /** A filter that every element passes keeps the whole sequence. */
  lemma {:induction false} FilterKeepsAll<T(!new)>(s: seq<T>, p: T -> bool)
    requires forall x :: x in s ==> p(x)
    ensures Filter(s, p) == s
  {
    if s != [] {
      var n := |s|;
      assert s == s[..n - 1] + [s[n - 1]];
      FilterKeepsAll(s[..n - 1], p);
    }
  }

  predicate SortedBy<T>(s: seq<T>, key: T -> int) {
    forall i, j :: 0 <= i < j < |s| ==> key(s[i]) <= key(s[j])
  }

  /** Inserts `x` after every element whose key is not larger (so equal keys keep
      their arrival order). */
  function Insert<T>(s: seq<T>, x: T, key: T -> int): (r: seq<T>)
    requires SortedBy(s, key)
    ensures SortedBy(r, key)
    ensures multiset(r) == multiset(s) + multiset{x}
    ensures |r| == |s| + 1
  {
    if s == [] || key(s[|s| - 1]) <= key(x) then s + [x]
    else
      var n := |s|;
      var init, last := s[..n - 1], s[n - 1];
      assert s == init + [last];
      var r' := Insert(init, x, key);
      KeysBelow(s, x, r', key);
      SortedSnoc(r', last, key);
      r' + [last]
  }

  /** What `Insert` puts before the last element of `s` has keys no larger than its. */
  lemma KeysBelow<T>(s: seq<T>, x: T, r: seq<T>, key: T -> int)
    requires SortedBy(s, key) && s != [] && key(x) < key(s[|s| - 1])
    requires multiset(r) == multiset(s[..|s| - 1]) + multiset{x}
    ensures forall i :: 0 <= i < |r| ==> key(r[i]) <= key(s[|s| - 1])
  {
    forall i | 0 <= i < |r| ensures key(r[i]) <= key(s[|s| - 1]) {
      assert r[i] in multiset(r);
      if r[i] != x {
        assert r[i] in s[..|s| - 1];
      }
    }
  }

  lemma SortedSnoc<T>(s: seq<T>, y: T, key: T -> int)
    requires SortedBy(s, key)
    requires forall i :: 0 <= i < |s| ==> key(s[i]) <= key(y)
    ensures SortedBy(s + [y], key)
  {
  }

  /** Sorting by `key`: the result is ordered by `key` and is a permutation of `s`. */
  function SortBy<T>(s: seq<T>, key: T -> int): (r: seq<T>)
    ensures SortedBy(r, key)
    ensures multiset(r) == multiset(s)
    ensures |r| == |s|
  {
    if s == [] then []
    else
      var n := |s|;
      assert s == s[..n - 1] + [s[n - 1]];
      Insert(SortBy(s[..n - 1], key), s[n - 1], key)
  }

  /** A leading cut of a sorted permutation of `s`: still sorted, made of elements of
      `s`, and the whole of `s` again when nothing is cut. */
  lemma SortedCut<T>(s: seq<T>, t: seq<T>, key: T -> int, k: nat)
    requires multiset(s) == multiset(t) && SortedBy(t, key) && k <= |t|
    ensures SortedBy(t[..k], key)
    ensures forall i :: 0 <= i < k ==> t[..k][i] in s
    ensures k == |t| ==> multiset(t[..k]) == multiset(s)
  {
    PermutationMembers(s, t);
    assert k == |t| ==> t[..k] == t;
  }

  /** Every element of a permutation of `s` is an element of `s`. */
  lemma PermutationMembers<T>(s: seq<T>, t: seq<T>)
    requires multiset(s) == multiset(t)
    ensures forall i :: 0 <= i < |t| ==> t[i] in s
  {
    forall i | 0 <= i < |t| ensures t[i] in s {
      assert t[i] in multiset(t);
    }
  }

  predicate Distinct<T(==)>(s: seq<T>) {
    forall i, j :: 0 <= i < j < |s| ==> s[i] != s[j]
  }

  lemma {:induction false} DistinctCountsOnce<T>(s: seq<T>, x: T)
    requires Distinct(s)
    ensures multiset(s)[x] <= 1
  {
    if s != [] {
      var n := |s|;
      assert s == s[..n - 1] + [s[n - 1]];
      DistinctCountsOnce(s[..n - 1], x);
      if x == s[n - 1] {
        assert x !in s[..n - 1];
      }
    }
  }

  lemma RepeatCountsTwice<T>(s: seq<T>, i: nat, j: nat)
    requires i < j < |s| && s[i] == s[j]
    ensures multiset(s)[s[i]] >= 2
  {
    assert s == s[..j] + [s[j]] + s[j + 1..];
    assert s[i] in s[..j];
  }

  /** Filtering a sequence without repetitions leaves one without repetitions. */
  lemma FilterKeepsDistinct<T(!new)>(s: seq<T>, p: T -> bool)
    requires Distinct(s)
    ensures Distinct(Filter(s, p))
  {
    var r := Filter(s, p);
    forall i, j | 0 <= i < j < |r| ensures r[i] != r[j] {
      if r[i] == r[j] {
        RepeatCountsTwice(r, i, j);
        DistinctCountsOnce(s, r[i]);
      }
    }
  }

  /** A permutation of a sequence without repetitions has none either. */
  lemma PermutationKeepsDistinct<T>(s: seq<T>, t: seq<T>)
    requires Distinct(s) && multiset(s) == multiset(t)
    ensures Distinct(t)
  {
    forall i, j | 0 <= i < j < |t| ensures t[i] != t[j] {
      if t[i] == t[j] {
        RepeatCountsTwice(t, i, j);
        DistinctCountsOnce(s, t[i]);
      }
    }
  }
}

=== FILE: server_js.dfy ===
/** socketHandler.js: the shared router plus the persisted `messages` table, with the
    handlers that use it (`message` with persistence and duplicate-id check, `get_inbox`
    and `get_chat_history`) and the snapshot's own `login`. */
module ServerJs {

  import opened Wrappers
  import opened Protocol
  import opened Admission
  import opened Presence
  import opened MessageTable
  import opened Inbox
  import opened Events
  import opened Router

  const ErrInboxFailed := "Failed to fetch inbox"
  const ErrHistoryFailed := "Failed to fetch history"

  /** The row the routing branch leaves in the table for an admitted message that was
      not a duplicate: delivered when the recipient was online, as saved otherwise. */
  function StoredRow(m: DirectMessage, online: bool): (r: Row)
    ensures r.id == m.id && r.sender == m.from && r.recipient == m.to && r.content == m.content
    ensures r.timestamp == m.timestamp
    ensures online ==> r.status == StatusDelivered
    ensures !online ==> r.status == InitialStatus(m.status)
  {
    if online then RowOf(m).(status := StatusDelivered) else RowOf(m)
  }

  /** Marking the freshly inserted row delivered touches that row only. */
  lemma DeliveredTouchesOnlyNewRow(rows: seq<Row>, r: Row, status: string)
    requires !HasId(rows, r.id)
    ensures SetStatus(rows + [r], r.id, status) == rows + [r.(status := status)]
  {
    var after := SetStatus(rows + [r], r.id, status);
    forall i | 0 <= i < |rows| ensures after[i] == rows[i] {
      assert (rows + [r])[i] == rows[i];
    }
    assert after[|rows|] == r.(status := status);
  }

  class JsServer {
    const hub: Hub
    var messages: seq<Row>

    ghost predicate Valid()
      reads this, hub
    {
      hub.Valid() && UniqueIds(messages)
    }

    constructor (users: seq<UserRow>, messages: seq<Row>)
      requires UniqueIds(messages)
      ensures Valid() && fresh(hub)
      ensures hub.userSockets.Keys() == [] && hub.lastMessageTime == map[] && hub.users == users
      ensures this.messages == messages
    {
      hub := new Hub(users);
      this.messages := messages;
    }

    /** The `login` handler of this snapshot. A failed users query leaves `data` null,
      so reading its length throws and the handler answers "Login failed". */
    method Login(socket: Socket, username: string, password: string, dbError: bool,
                 passwordMatches: (string, string) -> bool, token: string) returns (out: seq<Emit>)
      requires Valid()
      modifies hub, socket
      ensures Valid()
      ensures hub.lastMessageTime == old(hub.lastMessageTime) && hub.users == old(hub.users)
      ensures dbError ==> out == [Reply(ErrorEvent(ErrLoginFailed))]
      ensures !dbError && UsersNamed(hub.users, username) == [] ==> out == [Reply(ErrorEvent(ErrUserNotFound))]
      ensures !dbError && UsersNamed(hub.users, username) != [] ==>
        var row := UsersNamed(hub.users, username)[0];
        if passwordMatches(password, row.passwordHash) then
          && socket.user == Some(Identity(row.id, row.username))
          && hub.userSockets == Register(old(hub.userSockets), row.username, socket.id)
          && out == [Reply(LoginSuccess(token, row.username, None)), Broadcast(UserStatus(row.username, Online))]
        else
          out == [Reply(ErrorEvent(ErrInvalidPassword))]
      ensures out[0].event.ErrorEvent? ==> socket.user == old(socket.user) && hub.userSockets == old(hub.userSockets)
    {
      if dbError {
        return [Reply(ErrorEvent(ErrLoginFailed))];
      }
      var rows := UsersNamed(hub.users, username);
      if rows == [] {
        return [Reply(ErrorEvent(ErrUserNotFound))];
      }
      var row := rows[0];
      if !passwordMatches(password, row.passwordHash) {
        return [Reply(ErrorEvent(ErrInvalidPassword))];
      }
      hub.SignIn(socket, row);
      out := [Reply(LoginSuccess(token, row.username, None)), Broadcast(UserStatus(row.username, Online))];
    }

    /** `saveMessage`: the insert; the table's primary key refuses a row whose id is
      taken, and that refusal is swallowed. */
    method SaveMessage(m: DirectMessage)
      requires Valid()
      modifies this
      ensures Valid()
      ensures HasId(old(messages), m.id) ==> messages == old(messages)
      ensures !HasId(old(messages), m.id) ==> messages == old(messages) + [RowOf(m)]
      ensures HasId(messages, m.id)
    {
      if !HasId(messages, m.id) {
        InsertKeepsUniqueIds(messages, RowOf(m));
        messages := messages + [RowOf(m)];
      }
    }

    /** `updateMessageStatus`: the row with that id takes the status. */
    method UpdateMessageStatus(id: string, status: string)
      requires Valid()
      modifies this
      ensures Valid()
      ensures messages == SetStatus(old(messages), id, status)
    {
      SameIdsKeepUniqueness(messages, SetStatus(messages, id, status));
      messages := SetStatus(messages, id, status);
    }

    /** The `message` handler of this snapshot: admission and rate limit, then a
      silent drop of a duplicate id (after the clock has moved), then the insert and
      the routing, with the stored status moved to "delivered" when the recipient is
      online. */
    method OnMessage(socket: Socket, data: DirectMessage, schemaValid: bool, now: int) returns (out: seq<Emit>)
      requires Valid()
      modifies this, hub
      ensures Valid()
      ensures hub.userSockets == old(hub.userSockets) && hub.users == old(hub.users)
      ensures Screen(socket.user, schemaValid, data).Failure? ==>
        && out == [Reply(ErrorEvent(Screen(socket.user, schemaValid, data).error))]
        && hub.lastMessageTime == old(hub.lastMessageTime) && messages == old(messages)
      ensures Screen(socket.user, schemaValid, data).Success? ==>
        var a := Screen(socket.user, schemaValid, data).value;
        match Tick(old(hub.lastMessageTime), a.sender, now)
        case Failure(e) =>
          out == [Reply(ErrorEvent(e))] && hub.lastMessageTime == old(hub.lastMessageTime) && messages == old(messages)
        case Success(clock) =>
          && hub.lastMessageTime == clock
          && (HasId(old(messages), data.id) ==> out == [] && messages == old(messages))
          && (!HasId(old(messages), data.id) ==>
                && out == Routing(hub.userSockets, a)
                && messages == old(messages) + [StoredRow(a.message, hub.userSockets.Has(a.recipient))])
    {
      var admitted := hub.Admit(socket, data, schemaValid, now);
      if admitted.Failure? {
        return [Reply(ErrorEvent(admitted.error))];
      }
      var a := admitted.value;
      if HasId(messages, a.message.id) {
        return [];
      }
      ghost var before := messages;
      SaveMessage(a.message);
      out := Routing(hub.userSockets, a);
      if hub.userSockets.Has(a.recipient) {
        DeliveredTouchesOnlyNewRow(before, RowOf(a.message), StatusDelivered);
        UpdateMessageStatus(a.message.id, StatusDelivered);
      }
    }

    /** The `get_inbox` handler: silent for a guest, an error when the query fails,
      otherwise one correct summary per contact of the user's messages, newest first. */
    method GetInbox(socket: Socket, dbError: bool) returns (out: seq<Emit>)
      requires Valid()
      ensures socket.user.None? ==> out == []
      ensures socket.user.Some? && dbError ==> out == [Reply(ErrorEvent(ErrInboxFailed))]
      ensures socket.user.Some? && !dbError ==>
        && |out| == 1 && out[0].Reply? && out[0].event.InboxData?
        && IsInboxOf(socket.user.value.username, InboxQuery(messages, socket.user.value.username),
                     out[0].event.conversations)
    {
      if socket.user.None? {
        return [];
      }
      if dbError {
        return [Reply(ErrorEvent(ErrInboxFailed))];
      }
      var user := socket.user.value.username;
      var inbox := BuildInbox(user, InboxQuery(messages, user));
      out := [Reply(InboxData(inbox))];
    }

    /** The `get_chat_history` handler: the history goes out first, then the fetch marks
      the contact's pending messages to the user read. A failed query sends an error
      and marks nothing. */
    method GetChatHistory(socket: Socket, contact: string, dbError: bool) returns (out: seq<Emit>)
      requires Valid()
      modifies this
      ensures Valid()
      ensures socket.user.None? ==> out == [] && messages == old(messages)
      ensures socket.user.Some? && dbError ==> out == [Reply(ErrorEvent(ErrHistoryFailed))] && messages == old(messages)
      ensures socket.user.Some? && !dbError ==>
        && out == [Reply(ChatHistory(contact, History(old(messages), socket.user.value.username, contact)))]
        && messages == MarkRead(old(messages), socket.user.value.username, contact)
    {
      if socket.user.None? {
        return [];
      }
      if dbError {
        return [Reply(ErrorEvent(ErrHistoryFailed))];
      }
      var user := socket.user.value.username;
      out := [Reply(ChatHistory(contact, History(messages, user, contact)))];
      SameIdsKeepUniqueness(messages, MarkRead(messages, user, contact));
      messages := MarkRead(messages, user, contact);
    }
  }
}

=== FILE: server_ts.dfy ===
/** socketHandler.ts: the shared router with no message table, plus the public-key
    directory (`userPublicKeys` in memory, the `publickeys` table in the store), the
    `upload_public_keys` handler, and the snapshot's own `login` and `message`. */
module ServerTs {

  import opened Wrappers
  import opened Text
  import opened Protocol
  import opened Admission
  import opened Presence
  import opened Events
  import opened Router

  /** An entry of `userPublicKeys`. */
  datatype PublicKeys = PublicKeys(signingPublicKey: string, encryptionPublicKey: string, format: string, updatedAt: string)

  /** A row of the `publickeys` table, keyed by user id. */
  datatype KeyRow = KeyRow(id: string, publicSignKey: string, publicEncryptKey: string, format: string, updatedAt: string)

  /** The `upload_public_keys` payload; every field is optional. */
  datatype KeyUpload = KeyUpload(
    userId: Option<string>,
    username: Option<string>,
    signingPublicKey: Option<string>,
    encryptionPublicKey: Option<string>,
    format: Option<string>)

  const DefaultKeyFormat := "der-base64"
  const ErrUserIdRequired := "User id is required to upload keys"
  const ErrKeysRequired := "Both signing and encryption public keys are required"
  const ErrUploadFailed := "Failed to upload public keys"

  /** A present, non-empty string: what JavaScript treats as true. */
  predicate Truthy(a: Option<string>) {
    a.Some? && a.value != []
  }

  /** `a || b` on an optional string. */
  function Or(a: Option<string>, b: string): (r: string)
    ensures Truthy(a) ==> r == a.value
    ensures !Truthy(a) ==> r == b
  {
    if Truthy(a) then a.value else b
  }

  /** Both public keys are present and non-empty. */
  predicate KeysPresent(p: KeyUpload) {
    Truthy(p.signingPublicKey) && Truthy(p.encryptionPublicKey)
  }

  function UsernameOf(user: Option<Identity>): Option<string> {
    if user.Some? then Some(user.value.username) else None
  }

  function IdOf(user: Option<Identity>): Option<string> {
    if user.Some? then Some(user.value.id) else None
  }

  /** The key the upload is filed under: the connection's username, else the payload's,
      else nothing, trimmed and lower-cased. */
  function UploadName(user: Option<Identity>, p: KeyUpload): (r: string)
    ensures Truthy(UsernameOf(user)) ==> r == Normalize(user.value.username)
    ensures !Truthy(UsernameOf(user)) && Truthy(p.username) ==> r == Normalize(p.username.value)
    ensures !Truthy(UsernameOf(user)) && !Truthy(p.username) ==> r == []
  {
    Normalize(Or(UsernameOf(user), Or(p.username, "")))
  }

  /** The user id of the upload: the connection's id, else the payload's, trimmed. */
  function UploadId(user: Option<Identity>, p: KeyUpload): (r: string)
    ensures Truthy(IdOf(user)) ==> r == Trim(user.value.id)
    ensures !Truthy(IdOf(user)) && Truthy(p.userId) ==> r == Trim(p.userId.value)
    ensures !Truthy(IdOf(user)) && !Truthy(p.userId) ==> r == []
  {
    Trim(Or(IdOf(user), Or(p.userId, "")))
  }

  /** A user id as JavaScript holds it: text, or a number (what a `SERIAL` users id
      is once a login or a token claim carries it). */
  datatype IdValue = IdText(text: string) | IdNumber(number: int)

  const ErrTrimNotAFunction := "TypeError: trim is not a function"

  /** `(socket.user?.id || payload.userId || '').trim()` as written, outside the
      handler's `try`. A non-zero number is truthy, so it is chosen, and a number has no
      `trim`: the handler throws before it replies or writes anything. Zero is falsy
      and falls through to the payload. */
  function UploadIdAsWritten(id: Option<IdValue>, p: KeyUpload): (r: Result<string, string>)
    ensures id.None? ==> r == Success(UploadId(None, p))
    ensures id.Some? && id.value.IdText? ==> r == Success(UploadId(Some(Identity(id.value.text, "")), p))
    ensures id.Some? && id.value.IdNumber? && id.value.number != 0 ==> r == Failure(ErrTrimNotAFunction)
    ensures id == Some(IdNumber(0)) ==> r == Success(UploadId(None, p))
  {
    match id
    case None => Success(Trim(Or(p.userId, "")))
    case Some(IdText(text)) => Success(Trim(Or(Some(text), Or(p.userId, ""))))
    case Some(IdNumber(n)) => if n != 0 then Failure(ErrTrimNotAFunction) else Success(Trim(Or(p.userId, "")))
  }

  /** The input that shows it: a connection logged in as a user whose id is the number
      7. As written the upload throws; with the id read as text, "7", the keys are
      filed under "7" (`TsServer.UploadPublicKeys`). */
  lemma NumericIdUploadThrows(p: KeyUpload)
    ensures UploadIdAsWritten(Some(IdNumber(7)), p).Failure?
    ensures UploadId(Some(Identity("7", "alice")), p) == "7"
  {
    TrimOfTrimmed("7");
  }

  /** On an authenticated connection whose identity has a non-empty id and username,
      the payload cannot redirect the upload to another id or name, whatever it claims. */
  lemma AuthenticatedIdWins(user: Identity, p: KeyUpload, claimed: string)
    requires user.id != [] && user.username != []
    ensures UploadId(Some(user), p.(userId := Some(claimed))) == UploadId(Some(user), p)
    ensures UploadName(Some(user), p.(username := Some(claimed))) == UploadName(Some(user), p)
  {
  }

  /** On a guest connection the payload alone decides the id and the key. */
  lemma GuestUploadFollowsPayload(p: KeyUpload)
    ensures UploadId(None, p) == Trim(Or(p.userId, ""))
    ensures UploadName(None, p) == Normalize(Or(p.username, ""))
  {
  }

  predicate KeyedById(table: map<string, KeyRow>) {
    forall id :: id in table ==> table[id].id == id
  }

  /** An upsert on the row's own id keeps every row under its own id. */
  lemma UpsertKeepsKeyedById(table: map<string, KeyRow>, row: KeyRow)
    requires KeyedById(table)
    ensures KeyedById(table[row.id := row])
  {
  }

  class TsServer {
    const hub: Hub
    var userPublicKeys: map<string, PublicKeys>
    var keyTable: map<string, KeyRow>

    /** The shared state is well formed, and each key row sits under its own id (the
      upsert's conflict key). */
    ghost predicate Valid()
      reads this, hub
    {
      hub.Valid() && KeyedById(keyTable)
    }

    constructor (users: seq<UserRow>, keyTable: map<string, KeyRow>)
      requires KeyedById(keyTable)
      ensures Valid() && fresh(hub)
      ensures hub.userSockets.Keys() == [] && hub.lastMessageTime == map[] && hub.users == users
      ensures userPublicKeys == map[] && this.keyTable == keyTable
    {
      hub := new Hub(users);
      userPublicKeys := map[];
      this.keyTable := keyTable;
    }

    /** The `login` handler of this snapshot: a failed users query reads as "User not
      found", and `login_success` also carries the user id. */
    method Login(socket: Socket, username: string, password: string, dbError: bool,
                 passwordMatches: (string, string) -> bool, token: string) returns (out: seq<Emit>)
      requires Valid()
      modifies hub, socket
      ensures Valid()
      ensures hub.lastMessageTime == old(hub.lastMessageTime) && hub.users == old(hub.users)
      ensures dbError || UsersNamed(hub.users, username) == [] ==> out == [Reply(ErrorEvent(ErrUserNotFound))]
      ensures !dbError && UsersNamed(hub.users, username) != [] ==>
        var row := UsersNamed(hub.users, username)[0];
        if passwordMatches(password, row.passwordHash) then
          && socket.user == Some(Identity(row.id, row.username))
          && hub.userSockets == Register(old(hub.userSockets), row.username, socket.id)
          && out == [Reply(LoginSuccess(token, row.username, Some(row.id))), Broadcast(UserStatus(row.username, Online))]
        else
          out == [Reply(ErrorEvent(ErrInvalidPassword))]
      ensures out[0].event.ErrorEvent? ==> socket.user == old(socket.user) && hub.userSockets == old(hub.userSockets)
    {
      if dbError {
        return [Reply(ErrorEvent(ErrUserNotFound))];
      }
      var rows := UsersNamed(hub.users, username);
      if rows == [] {
        return [Reply(ErrorEvent(ErrUserNotFound))];
      }
      var row := rows[0];
      if !passwordMatches(password, row.passwordHash) {
        return [Reply(ErrorEvent(ErrInvalidPassword))];
      }
      hub.SignIn(socket, row);
      out := [Reply(LoginSuccess(token, row.username, Some(row.id))), Broadcast(UserStatus(row.username, Online))];
    }

    /** The `upload_public_keys` handler. Both validation errors come before any store
      or map change; a failed upsert changes nothing; a successful one files the keys
      under the user id, and in memory under the username when there is one. It does
      not require an authenticated connection. */
    method UploadPublicKeys(socket: Socket, p: KeyUpload, upsertFails: bool, nowIso: string) returns (out: seq<Emit>)
      requires Valid()
      modifies this
      ensures Valid()
      ensures UploadId(socket.user, p) == [] ==>
        out == [Reply(ErrorEvent(ErrUserIdRequired))] && unchanged(this)
      ensures UploadId(socket.user, p) != [] && !KeysPresent(p) ==>
        out == [Reply(ErrorEvent(ErrKeysRequired))] && unchanged(this)
      ensures UploadId(socket.user, p) != [] && KeysPresent(p) && upsertFails ==>
        out == [Reply(ErrorEvent(ErrUploadFailed))] && unchanged(this)
      ensures UploadId(socket.user, p) != [] && KeysPresent(p) && !upsertFails ==>
        var id := UploadId(socket.user, p);
        var name := UploadName(socket.user, p);
        var keys := PublicKeys(p.signingPublicKey.value, p.encryptionPublicKey.value, Or(p.format, DefaultKeyFormat), nowIso);
        && keyTable == old(keyTable)[id := KeyRow(id, keys.signingPublicKey, keys.encryptionPublicKey, keys.format, nowIso)]
        && userPublicKeys == (if name == [] then old(userPublicKeys) else old(userPublicKeys)[name := keys])
        && out == [Reply(PublicKeysUploaded(id, if name == [] then None else Some(name)))]
    {
      var user := socket.user;
      var id := UploadId(user, p);
      if id == [] {
        return [Reply(ErrorEvent(ErrUserIdRequired))];
      }
      if !KeysPresent(p) {
        return [Reply(ErrorEvent(ErrKeysRequired))];
      }
      var format := Or(p.format, DefaultKeyFormat);
      if upsertFails {
        return [Reply(ErrorEvent(ErrUploadFailed))];
      }
      var name := UploadName(user, p);
      var keys := PublicKeys(p.signingPublicKey.value, p.encryptionPublicKey.value, format, nowIso);
      var table, inMemory := keyTable, userPublicKeys;
      var row := KeyRow(id, keys.signingPublicKey, keys.encryptionPublicKey, format, nowIso);
      UpsertKeepsKeyedById(table, row);
      table := table[id := row];
      if name != [] {
        inMemory := inMemory[name := keys];
      }
      keyTable, userPublicKeys := table, inMemory;
      out := [Reply(PublicKeysUploaded(id, if name == [] then None else Some(name)))];
    }

    /** The `message` handler of this snapshot: the same admission and rate limit, then
      routing only; nothing is stored and there is no duplicate-id check. */
    method OnMessage(socket: Socket, data: DirectMessage, schemaValid: bool, now: int) returns (out: seq<Emit>)
      requires Valid()
      modifies hub
      ensures Valid()
      ensures hub.userSockets == old(hub.userSockets) && hub.users == old(hub.users)
      ensures Screen(socket.user, schemaValid, data).Failure? ==>
        && out == [Reply(ErrorEvent(Screen(socket.user, schemaValid, data).error))]
        && hub.lastMessageTime == old(hub.lastMessageTime)
      ensures Screen(socket.user, schemaValid, data).Success? ==>
        var a := Screen(socket.user, schemaValid, data).value;
        match Tick(old(hub.lastMessageTime), a.sender, now)
        case Failure(e) => out == [Reply(ErrorEvent(e))] && hub.lastMessageTime == old(hub.lastMessageTime)
        case Success(clock) => hub.lastMessageTime == clock && out == Routing(hub.userSockets, a)
    {
      var admitted := hub.Admit(socket, data, schemaValid, now);
      if admitted.Failure? {
        return [Reply(ErrorEvent(admitted.error))];
      }
      out := Routing(hub.userSockets, admitted.value);
    }
  }
}

=== FILE: text.dfy ===
/** Username normalisation and the string measures the router's policy checks use:
    JavaScript's `trim`, an ASCII `toLowerCase`, and `length` in UTF-16 code units. */
module Text {

  /** The characters JavaScript's `String.prototype.trim` strips: WhiteSpace
      (tab, vertical tab, form feed, BOM and the Unicode space separators) and
      LineTerminator (LF, CR, U+2028, U+2029). */
  predicate IsWhitespace(c: char) {
    c == ' ' || c == '\t' || c == '\n' || c == '\r' || c == '\U{000B}' || c == '\U{000C}'
    || c == '\U{00A0}' || c == '\U{1680}' || ('\U{2000}' <= c <= '\U{200A}')
    || c == '\U{2028}' || c == '\U{2029}' || c == '\U{202F}' || c == '\U{205F}'
    || c == '\U{3000}' || c == '\U{FEFF}'
  }

  /** A string made of whitespace only (the empty string included). */
  predicate IsBlank(s: string) {
    forall i :: 0 <= i < |s| ==> IsWhitespace(s[i])
  }

  /** Strips leading whitespace: the characters cut from the front are whitespace and
      the result does not start with whitespace (`TrimStartIsSuffix`: it is the rest
      of `s`). */
  function TrimStart(s: string): (r: string)
    ensures |r| <= |s|
    ensures forall i :: 0 <= i < |s| - |r| ==> IsWhitespace(s[i])
    ensures r == [] || !IsWhitespace(r[0])
  {
    if s != [] && IsWhitespace(s[0]) then TrimStart(s[1..]) else s
  }

  /** Strips trailing whitespace: the characters cut from the end are whitespace and
      the result does not end with whitespace (`TrimEndIsPrefix`: it is the rest of
      `s`). */
  function TrimEnd(s: string): (r: string)
    ensures |r| <= |s|
    ensures forall i :: |r| <= i < |s| ==> IsWhitespace(s[i])
    ensures r == [] || !IsWhitespace(r[|r| - 1])
  {
    if s != [] && IsWhitespace(s[|s| - 1]) then TrimEnd(s[..|s| - 1]) else s
  }

  /** `r` is the stretch of `s` that starts at `k`, and everything around it is
      whitespace. */
  predicate PaddedAt(s: string, r: string, k: nat) {
    k + |r| <= |s| && r == s[k..k + |r|] && IsBlank(s[..k]) && IsBlank(s[k + |r|..])
  }

  /** JavaScript's `trim`: `s` with its blank ends cut off. The result is empty exactly
      when `s` is blank; otherwise it neither starts nor ends with whitespace. */
  function Trim(s: string): (r: string)
    ensures |r| <= |s|
    ensures exists k :: PaddedAt(s, r, k)
    ensures r == [] <==> IsBlank(s)
    ensures r == [] || (!IsWhitespace(r[0]) && !IsWhitespace(r[|r| - 1]))
  {
    var t := TrimStart(s);
    var r := TrimEnd(t);
    TrimStartIsSuffix(s);
    TrimEndIsPrefix(t);
    var k := |s| - |t|;
    assert PaddedAt(s, r, k) by {
      assert s[k..k + |r|] == t[..|r|];
      assert s[k + |r|..] == t[|r|..];
    }
    r
  }

  lemma {:induction false} TrimStartIsSuffix(s: string)
    ensures TrimStart(s) == s[|s| - |TrimStart(s)|..]
  {
    if s != [] && IsWhitespace(s[0]) {
      TrimStartIsSuffix(s[1..]);
    }
  }

  lemma {:induction false} TrimEndIsPrefix(s: string)
    ensures TrimEnd(s) == s[..|TrimEnd(s)|]
  {
    if s != [] && IsWhitespace(s[|s| - 1]) {
      TrimEndIsPrefix(s[..|s| - 1]);
    }
  }

  predicate IsAsciiUpper(c: char) {
    'A' <= c <= 'Z'
  }

  function LowerChar(c: char): (d: char)
    ensures !IsAsciiUpper(d)
    ensures IsWhitespace(d) <==> IsWhitespace(c)
    ensures !IsAsciiUpper(c) ==> d == c
  {
    if IsAsciiUpper(c) then (c as int + 32) as char else c
  }

  /** `toLowerCase`, on ASCII letters: same length, no upper-case ASCII letter left,
      every other character kept where it was. */
  function Lower(s: string): (r: string)
    ensures |r| == |s|
    ensures forall i :: 0 <= i < |s| ==> r[i] == LowerChar(s[i])
    ensures forall i :: 0 <= i < |r| ==> !IsAsciiUpper(r[i])
  {
    if s == [] then [] else [LowerChar(s[0])] + Lower(s[1..])
  }

  /** The routing key of a username: `name.trim().toLowerCase()`. It is no longer than
      the name, empty exactly for a blank name, and holds no ASCII capital. */
  function Normalize(s: string): (r: string)
    ensures |r| <= |s|
    ensures r == [] <==> IsBlank(s)
    ensures r == [] || (!IsWhitespace(r[0]) && !IsWhitespace(r[|r| - 1]))
    ensures forall i :: 0 <= i < |r| ==> !IsAsciiUpper(r[i])
  {
    Lower(Trim(s))
  }

  /** The key is a stretch of the lower-cased name with only whitespace around it. */
  lemma NormalizeIsPaddedStretch(s: string)
    ensures exists k :: PaddedAt(Lower(s), Normalize(s), k)
  {
    var t := Lower(s);
    LowerTrimCommute(s);
    assert Normalize(s) == Trim(t);
    var k :| PaddedAt(t, Trim(t), k);
    assert PaddedAt(t, Normalize(s), k);
  }

  lemma NormalizeEmptyIffBlank(s: string)
    ensures Normalize(s) == [] <==> IsBlank(s)
  {
  }

  /** Trimming a string that has no whitespace at either end leaves it alone. */
  lemma TrimOfTrimmed(s: string)
    requires s == [] || (!IsWhitespace(s[0]) && !IsWhitespace(s[|s| - 1]))
    ensures Trim(s) == s
  {
  }

  lemma LowerIdempotent(s: string)
    ensures Lower(Lower(s)) == Lower(s)
  {
  }

  /** Normalising twice is normalising once: a routing key is its own key. */
  lemma NormalizeIdempotent(s: string)
    ensures Normalize(Normalize(s)) == Normalize(s)
  {
    var t := Trim(s);
    var l := Lower(t);
    assert l == [] || (!IsWhitespace(l[0]) && !IsWhitespace(l[|l| - 1]));
    TrimOfTrimmed(l);
    LowerIdempotent(t);
  }

  /** Names that differ only in ASCII case or surrounding whitespace share one key. */
  lemma NormalizeIgnoresCaseAndPadding(s: string, pad1: string, pad2: string)
    requires IsBlank(pad1) && IsBlank(pad2)
    ensures Normalize(pad1 + Lower(s) + pad2) == Normalize(s)
  {
    LowerTrimCommute(s);
    TrimPadded(pad1, Lower(s), pad2);
    LowerIdempotent(Trim(s));
  }

  lemma TrimPadded(pad1: string, s: string, pad2: string)
    requires IsBlank(pad1) && IsBlank(pad2)
    ensures Trim(pad1 + s + pad2) == Trim(s)
  {
    StripPadded(pad1, s, pad2);
  }

  lemma {:induction false} StripPadded(pad1: string, s: string, pad2: string)
    requires IsBlank(pad1) && IsBlank(pad2)
    ensures TrimEnd(TrimStart(pad1 + s + pad2)) == TrimEnd(TrimStart(s))
  {
    if pad1 != [] {
      assert (pad1 + s + pad2)[1..] == pad1[1..] + s + pad2;
      StripPadded(pad1[1..], s, pad2);
      assert TrimStart(pad1 + s + pad2) == TrimStart(pad1[1..] + s + pad2);
    } else if pad2 != [] {
      var n := |pad2|;
      assert (s + pad2)[..|s| + n - 1] == s + pad2[..n - 1];
      StripPadded([], s, pad2[..n - 1]);
      assert pad1 + s + pad2 == s + pad2;
      assert pad1 + s + pad2[..n - 1] == s + pad2[..n - 1];
      TrimStartKeepsTail(s, pad2);
    } else {
      assert pad1 + s + pad2 == s;
    }
  }

  /** Stripping the front of `s + pad` never reaches the blank tail unless `s` is blank. */
  lemma {:induction false} TrimStartKeepsTail(s: string, pad: string)
    requires IsBlank(pad) && pad != []
    ensures TrimEnd(TrimStart(s + pad)) == TrimEnd(TrimStart(s + pad[..|pad| - 1]))
  {
    if s != [] && IsWhitespace(s[0]) {
      assert (s + pad)[1..] == s[1..] + pad;
      assert (s + pad[..|pad| - 1])[1..] == s[1..] + pad[..|pad| - 1];
      TrimStartKeepsTail(s[1..], pad);
    } else if s == [] {
      var p := pad[..|pad| - 1];
      assert s + pad == pad && s + p == p;
      BlankTrimStart(pad);
      BlankTrimStart(p);
    } else {
      var u := s + pad;
      assert TrimStart(u) == u;
      assert TrimStart(s + pad[..|pad| - 1]) == s + pad[..|pad| - 1];
      assert u[..|u| - 1] == s + pad[..|pad| - 1];
    }
  }

  lemma BlankTrimStart(s: string)
    requires IsBlank(s)
    ensures TrimStart(s) == []
  {
  }

  lemma {:induction false} LowerTrimCommute(s: string)
    ensures Trim(Lower(s)) == Lower(Trim(s))
  {
    var l := Lower(s);
    var a := TrimStart(s);
    var b := TrimEnd(a);
    var a' := TrimStart(l);
    var b' := TrimEnd(a');
    assert |a'| == |a| by {
      LowerTrimStart(s);
    }
    assert a' == Lower(a) by {
      LowerTrimStart(s);
    }
    LowerTrimEnd(a);
  }

  lemma {:induction false} LowerTrimStart(s: string)
    ensures TrimStart(Lower(s)) == Lower(TrimStart(s))
  {
    if s != [] {
      assert Lower(s)[1..] == Lower(s[1..]);
      LowerTrimStart(s[1..]);
    }
  }

  lemma {:induction false} LowerTrimEnd(s: string)
    ensures TrimEnd(Lower(s)) == Lower(TrimEnd(s))
  {
    if s != [] {
      var n := |s|;
      var front := s[..n - 1];
      assert Lower(s)[..n - 1] == Lower(front);
      LowerTrimEnd(front);
      if IsWhitespace(s[n - 1]) {
        assert TrimEnd(Lower(s)) == TrimEnd(Lower(front));
      } else {
        assert TrimEnd(s) == s;
        assert TrimEnd(Lower(s)) == Lower(s);
      }
    }
  }

  /** JavaScript's `length`: UTF-16 code units, two for a character outside the
      Basic Multilingual Plane. */
  function Utf16Length(s: string): (n: nat)
    ensures |s| <= n <= 2 * |s|
  {
    if s == [] then 0 else (if s[0] as int >= 0x1_0000 then 2 else 1) + Utf16Length(s[1..])
  }

  /** Within the Basic Multilingual Plane a character is one code unit. */
  lemma {:induction false} Utf16LengthOfBmp(s: string)
    requires forall i :: 0 <= i < |s| ==> s[i] as int < 0x1_0000
    ensures Utf16Length(s) == |s|
  {
    if s != [] {
      Utf16LengthOfBmp(s[1..]);
    }
  }
}

=== FILE: wrappers.dfy ===
/** Optional values and success-or-error results. */
module Wrappers {

  datatype Option<+T> = None | Some(value: T)

  datatype Result<+T, +E> = Success(value: T) | Failure(error: E)
}
